=== FILE: README.md ===
# JVM-argument encoder of servo-k8s, modelled in Dafny

servo-k8s is an Opsani servo driver for Kubernetes. A container's `command` can have a
`java-opts` encoder. The encoder turns tunable JVM settings into `-XX:<Name>=<value>`
arguments (`encode`). It also reads the current values back out of an argument list
(`describe`). This project models that encoder (`encoders/java_args.py`) in four layers:

- `ranges.dfy` (`Ranges`): the range setting.
  - Construction resolves `min`, `max`, `step` and `default` from the per-setting
    options, falling back to the class constants.
  - `check_config` then checks them in a fixed order: presence, numeric type,
    ordering, step, and the relaxation lock.
  - Also `describe`, and `validate_value` with its step test (Python's float `%`).
- `transcoders.dfy` (`Transcoders`):
  - gigabytes ⇄ `"<n>m"` megabyte text (`IntGbToStrPrefixMbEncoder`);
  - `str` ⇄ `int` (`StrToIntEncoder`).
- `java_options.dfy` (`JavaOptions`):
  - the Java option setting: `encode_option`, `validate_data`, `decode_option`;
  - its two concrete classes, `MaxHeapSize` and `GCTimeRatio`, as the `Kind`
    datatype with their class constants.
- `encoder.dfy` (`JavaArgs`):
  - `Encoder` construction from a configuration;
  - `describe` and `encode_multi`;
  - the module-level `encode` and `describe`.

Supporting modules:

- `text.dfy` (`Text`): the Python text conversions the transcoders rely on (`str(int)`,
  `int(str)`, `round`, `str.lower`, `split('=', 1)`, `str(float)`).
- `numbers.dfy` (`Numbers`): Python `int` and `float` kept apart as `Number`; a
  configuration or supplied value as `Val` (`None`, a number, or anything else).
- `errors.dfy` (`Errors`): one constructor per exception the encoder raises.
- `wrappers.dfy` (`Wrappers`): `Option` and `Result`.
- `scenarios.dfy` (`Scenarios`): concrete configurations, with their outcomes proved.

Exceptions become `Err` values.

- A Python dictionary of options is a `map`, so a key that is present with the value
  `None` differs from an absent key, as it does for `dict.get`.
- The encoder's ordered `settings` dictionary is a sequence of entries.
- Floats are exact reals. The step test `(value - min) % step != 0` is Python's
  floor modulo on those reals.

Three behaviours of the code are easy to miss:

- Encoding exactly `max` is not always accepted. When `max - min` is not a multiple of
  `step`, `max` is off the step grid and `validate_value` refuses it with a step error.
  `Scenarios.GcRatioRelaxation` shows this for GCTimeRatio with `{min: 10, max: 90, step: 9}`.
  The code accepts that configuration, because it only checks relaxation against 9 and 99.
- Per-setting option keys other than `min`, `max`, `step` and `default` are ignored, not
  refused.
- `MaxHeapSize` describes its unit as `gigabytes`.

## Model

| member | source | states |
|---|---|---|
| Ranges.NewRangeSetting | encoders/java_args.py:74-131 | A constructed setting has the resolved `config.get(key, class constant)` values as its min, max and step. It has ordered bounds and a positive step unless min equals max. When relaxation is locked, its bounds lie inside the class constants. |
| Ranges.NewRangeSettingSucceedsIff | encoders/java_args.py:81-131 | Construction succeeds exactly when min, max and step resolve to numbers that form a valid setting. |
| Ranges.ConstructionCheckOrder | encoders/java_args.py:87-116 | Each construction error is raised exactly when every earlier check passed: missing min, max, step, then non-numeric values, then min > max, then a non-positive step (only when min != max). |
| Ranges.RelaxationLock | encoders/java_args.py:117-131 | For a class that forbids relaxation, a min below the class min is refused first. Then a max above the class max is refused. Bounds inside the class bounds are accepted. |
| Ranges.Describe | encoders/java_args.py:133-143 | The description is the setting's name, type `range`, min, max, step and unit. `default` is present exactly when one is configured. |
| Ranges.FloorMod | encoders/java_args.py:157 | Python's `%` for a positive divisor lies in `[0, step)`. |
| Ranges.FloorModZeroIffOnGrid | encoders/java_args.py:157 | A zero remainder of `value - min` by `step` holds exactly when the value is `min` plus a whole number of steps. |
| Ranges.ValidateValue | encoders/java_args.py:145-161 | The checks run in order. `None` is refused as "no value to encode" and a non-number as an invalid type. A number below min is a lower-bound violation. A number at least min but above max is an upper-bound violation. An in-bounds number is returned unchanged when the range has no step test (min equals max, or no positive step). Any success returns the value unchanged, within the bounds. |
| Ranges.StepOutcome | encoders/java_args.py:157-161 | For an in-bounds number when the range has a step test: the number is accepted unchanged exactly when it is min plus a whole number of steps. Otherwise it is refused as ValueStepRemainder. |
| Ranges.ValidateValueAdmits | encoders/java_args.py:145-161 | On a constructed setting, validation accepts exactly the numbers that are within the bounds and on the step grid (any in-bounds number when min equals max). |
| Ranges.BoundEnforcement | encoders/java_args.py:151-157 | One step below min is a lower-bound violation and one step above max an upper-bound violation. Min itself is accepted. |
| Transcoders.GbToMb | encoders/java_args.py:166-168 | Encoding gigabytes yields text ending in `m`; `MegabytesText` states which digits come before it. |
| Transcoders.MegabytesText | encoders/java_args.py:166-168 | The text before the `m` is canonical integer text (no sign unless negative, no leading zero) that reads back as `round(value * 1024)`, so by `CanonicalIsDecimal` it is exactly `str` of that count. |
| Transcoders.MbToGb | encoders/java_args.py:170-175 | Empty text is an IndexError. Decoding succeeds exactly when the text ends in `m` or `M` and the rest of the lower-cased text is an integer. The result is then the float that integer divided by 1024, so `2048M` gives 2.0. Every other text is a ValueError. |
| Transcoders.DecodedWholeMegabytes | encoders/java_args.py:170-175 | Whatever decoding returns is a whole number of megabytes. |
| Transcoders.UpperCaseUnit | encoders/java_args.py:170-175 | Because of `lower()`, `<i>M` reads as `i / 1024` gigabytes, just as `<i>m` does. |
| Transcoders.MegabytesRoundTrip | encoders/java_args.py:164-175 | A whole number of megabytes decodes back to the same gigabyte value. |
| Transcoders.MegabytesApproximate | encoders/java_args.py:164-175 | Any gigabyte value decodes back to within half a megabyte. |
| Transcoders.StrToInt | encoders/java_args.py:184-186 | `int()` never raises IndexError. It succeeds exactly when the text is an optionally signed integer, and gives that int. Everything else, including empty text, is a ValueError. |
| Transcoders.IntToStr | encoders/java_args.py:181-182 | An int's text is canonical and reads back as that int under `int()`, so by `CanonicalIsDecimal` it is exactly `str(i)`. A float's text is no integer at all. |
| Transcoders.StrToIntSignAndZeros | encoders/java_args.py:184-186 | `int()` also accepts text `str()` never writes: leading zeros, a `+` sign, and a `-` sign before leading zeros. |
| Transcoders.IntRoundTrip | encoders/java_args.py:178-186 | `int(str(i)) == i` for every int. |
| Transcoders.FloatDoesNotRoundTrip | encoders/java_args.py:178-186 | Every float, even a whole-valued one such as `15.0`, is written with a point, so `int()` refuses it. |
| Text.ParseIntOfDecimal | encoders/java_args.py:178-186 | Parsing the decimal text of an int gives that int. |
| Text.CanonicalIsDecimal | encoders/java_args.py:182 | Integer text with no `+`, no leading zero, and a `-` only before a non-zero magnitude is exactly `str` of the integer it reads as. So canonical text and its value determine each other. |
| Text.RoundHalfEven | encoders/java_args.py:168 | `round` gives the nearest integer, breaking ties towards even. |
| Text.AfterFirstEquals | encoders/java_args.py:229 | `split('=', 1)[1]` fails exactly when there is no `=`. Otherwise it is the text after the first `=`, which may itself contain `=`. |
| Text.FloatText | encoders/java_args.py:182 | The text of a float holds a decimal point after at least one digit. |
| JavaOptions.NewJavaOptionSetting | encoders/java_args.py:192-196 | A setting of a class is the range built from that class's constants and the options: its range is exactly what `NewRangeSetting(kind.Builtin(), opts)` gives. It fails exactly when that range construction fails, with the same error. |
| JavaOptions.Kind.Builtin | encoders/java_args.py:236-250 | The class constants: MaxHeapSize is `gigabytes`, min 0.5, step 0.125, no max, and may be relaxed. GCTimeRatio has no unit, is [9, 99] in steps of 1, and may not be relaxed. Each carries its own name. |
| JavaOptions.ClassDefaults | encoders/java_args.py:236-250 | Built from empty options, GCTimeRatio is the range [9, 99] in steps of 1. MaxHeapSize has no built-in max, so empty options are refused with NoUpperBound. Given a max, it is built from 0.5 in steps of 0.125. |
| JavaOptions.NoSchemaDefinitionError | encoders/java_args.py:117-131 | Neither concrete class can reach the `NotImplementedError` for a missing class bound. |
| JavaOptions.EncodeOption | encoders/java_args.py:198-206 | Encoding succeeds exactly when validation does, and fails with validation's error. The result is one argument, `-XX:<Name>=<encoded value>`. |
| JavaOptions.Matches | encoders/java_args.py:209 | The filtered arguments are exactly those starting with `-XX:<Name>`, each kept as often as it occurs in the input (a multiset count). Order is kept; `MatchesAppend` states it. |
| JavaOptions.MatchesAppend | encoders/java_args.py:209 | Filtering distributes over concatenation. |
| JavaOptions.ValidateData | encoders/java_args.py:208-216 | It succeeds exactly when there is at most one matching argument and either one matches or a default is configured. Success returns the matching arguments. More than one match is MultipleSettings, checked first. No match without a default is NoValueToDecode. |
| JavaOptions.DecodeOption | encoders/java_args.py:218-233 | Several matches are refused as MultipleSettings. No match gives the default, or NoValueToDecode when there is none. One match that decodes gives a number. An invalid-value error names an argument that has the setting's prefix. |
| JavaOptions.SingleMatchOutcome | encoders/java_args.py:225-233 | With exactly one matching argument, the result is the transcoder's reading of the text after its first `=`. A ValueError becomes InvalidValue naming that argument. A missing `=` or an IndexError escapes. |
| JavaOptions.DuplicateArgumentRefused | encoders/java_args.py:208-212 | The same argument given twice is refused as MultipleSettings, even though both copies agree. |
| JavaOptions.HeapWrongUnitUnreadable | encoders/java_args.py:170-175 | A sole MaxHeapSize argument whose value does not end in `m` or `M` (such as `-XX:MaxHeapSize=5.2g`) is refused as InvalidValue naming that argument. |
| JavaOptions.PrefixesExclusive | encoders/java_args.py:206-209 | No argument starts with the `-XX:<Name>` prefixes of two different classes. |
| JavaOptions.ValueAfterPrefix | encoders/java_args.py:206-229 | The value part of `-XX:<Name>=<data>` is `data`. |
| JavaOptions.MatchesSingle | encoders/java_args.py:209 | When only the k-th argument has the prefix, filtering yields exactly that argument. |
| JavaOptions.DecodeSoleMatch | encoders/java_args.py:218-250 | When the only matching argument was written for a representable number, decoding gives that number back, and exactly so for GCTimeRatio. |
| JavaOptions.DecodeEncodedOption | encoders/java_args.py:198-250 | Round trip of one setting: a valid representable value, written among arguments without that prefix, is read back as the same number. |
| JavaOptions.GcRatioUnreadable | encoders/java_args.py:228-232 | A GCTimeRatio argument whose value is not an integer is refused as an invalid value naming the argument. |
| JavaOptions.GcRatioFloatUnreadable | encoders/java_args.py:178-233 | The argument written for any float GCTimeRatio value carries a decimal point, so decoding it is refused as an invalid value naming that argument. |
| JavaOptions.GcRatioFloatAcceptedThenUnreadable | encoders/java_args.py:145-233 | A float GCTimeRatio value inside the range and on the step grid is accepted and written as a single argument, and decoding that argument fails: encode succeeds where describe cannot read the result back. |
| JavaArgs.Registry | encoders/java_args.py:267-269 | The `<name>Setting` lookup finds a class exactly for `MaxHeapSize` and `GCTimeRatio`, and the class found carries that name. |
| JavaArgs.BuildSettings | encoders/java_args.py:264-270 | On success there is one setting per entry, in order. Setting i is of the class the registry finds for entry i's name, and is exactly that class instantiated with entry i's options (`{}` when none). The error on failure is stated by `BuildSettingsFirstFailure`. |
| JavaArgs.BuildSettingsSucceedsIff | encoders/java_args.py:264-270 | The loop succeeds exactly when every entry's name has a class and that class builds from the entry's options. |
| JavaArgs.BuildSettingsFirstFailure | encoders/java_args.py:265-270 | The loop raises the error of the first entry that does not build, unchanged: UnsupportedSetting for a name without a class, or that class's construction error. |
| JavaArgs.NewEncoder | encoders/java_args.py:255-270 | `None` is an empty encoder and a non-dictionary is refused. A dictionary succeeds exactly when every entry has a class and builds. Then the encoder keeps `before` and `after`, and setting i is entry i's class instantiated with entry i's options. Otherwise it raises the error of the first entry that does not build: UnsupportedSetting for an unknown name, or that class's own construction error. |
| JavaArgs.UnsupportedSettingRefused | encoders/java_args.py:265-269 | A requested name without a class is refused, naming it, once the earlier entries build. |
| JavaArgs.EncodeSettings | encoders/java_args.py:280-285 | The loop writes one argument per setting. It leaves exactly the values of other names unconsumed. The error on failure is stated by `EncodeSettingsFirstFailure`. |
| JavaArgs.EncodedPrefixes | encoders/java_args.py:284-285 | Argument i of the loop's output starts with setting i's `-XX:<Name>` prefix. |
| JavaArgs.EncodeMulti | encoders/java_args.py:278-292 | The output is `before`, one argument per setting, then `after`. Success implies every supplied value was consumed. The errors, in order, are stated by `EncodeMultiFailure`. |
| JavaArgs.EncodeSettingsExact | encoders/java_args.py:284-285 | The loop succeeds exactly when every setting's supplied value validates. Argument i is then the argument for setting i's value. |
| JavaArgs.EncodeSettingsSucceedsIff | encoders/java_args.py:284-285 | For distinct settings, the loop succeeds exactly when every setting's supplied value validates. |
| JavaArgs.EncodeSettingsTokens | encoders/java_args.py:284-285 | For distinct settings, argument i of a successful loop is the argument for the number supplied for setting i. |
| JavaArgs.EncodeSettingsFirstFailure | encoders/java_args.py:284-285 | For distinct settings, the loop raises the validation error of the first setting whose supplied value does not validate. |
| JavaArgs.EncodeMultiExact | encoders/java_args.py:278-297 | `encode` succeeds exactly when every setting's value validates and no unsupported value was supplied. Argument `|before| + i` is then setting i's argument. |
| JavaArgs.Encode | encoders/java_args.py:295-297 | Construction errors come first, unchanged. With no configuration, only an empty set of values is accepted. Otherwise a success is `before`, one argument per configured setting, then `after`, and every supplied value is for a configured name. Value errors are stated by `EncodeFailure`. |
| JavaArgs.LeftoverValuesRefused | encoders/java_args.py:289-290 | Values for names that are not configured are refused with exactly those names. |
| JavaArgs.EncodeMultiFailure | encoders/java_args.py:278-292 | A validation error of the first failing setting is raised before anything else. Only when every value validates are leftover values refused, naming them. |
| JavaArgs.EncodeOfMapping | encoders/java_args.py:295-297 | For a dictionary that builds, `encode` is the encoder's `encode_multi`, and the encoder's names are the configured ones. |
| JavaArgs.EncodeFailure | encoders/java_args.py:278-297 | For a dictionary that builds, `encode` raises the validation error of the first configured setting whose value does not validate. Only when every value validates does it refuse unsupported values, naming exactly those. |
| JavaArgs.MissingValueRefused | encoders/java_args.py:284-285 | A configured setting with no supplied value is refused with NoValueToEncode naming it, once the settings before it validate. |
| JavaArgs.DescribeSettings | encoders/java_args.py:272-276 | One description per configured setting, in order. |
| JavaArgs.ReadValues | encoders/java_args.py:303-305 | On success there is one value per setting, in order, and value i is what decoding setting i from the arguments gives. |
| JavaArgs.ReadValuesFirstFailure | encoders/java_args.py:303-305 | A failed read reports the error of the first setting, in order, that does not decode. |
| JavaArgs.ReadValuesStopsAt | encoders/java_args.py:303-305 | The decoding loop raises the error of the first setting that cannot be read, unchanged. |
| JavaArgs.Describe | encoders/java_args.py:300-306 | With no configuration the result is empty, and a construction error is passed through. Otherwise describing succeeds exactly when every configured setting decodes. Entry i is then setting i's name with its range description, and its `value` is the decoded value. Which error a failure raises is stated by `DescribeFailure`. |
| JavaArgs.DescribeFailure | encoders/java_args.py:300-306 | `describe` raises the error of the first entry that does not build. Otherwise it raises the decode error of the first setting that cannot be read, so a decode error is never reported as a configuration error. |
| JavaArgs.SoleOwnArgument | encoders/java_args.py:208-216 | In `before ++ written arguments ++ after`, filtering by setting i's prefix yields only setting i's argument, given that `before` and `after` carry none. |
| JavaArgs.OwnArgumentOnly | encoders/java_args.py:278-292 | After a successful encode, the argument written for a setting is the only one with its prefix, given that `before` and `after` carry none. |
| JavaArgs.ReadBack | encoders/java_args.py:278-292 | After a successful encode, decoding a setting from the output gives back the number supplied for it, when that number is representable. |
| JavaArgs.ReadAllBack | encoders/java_args.py:278-292 | After a successful encode, every setting decodes from the output to the number supplied for it, when those numbers are representable. |
| JavaArgs.DescribeReadsBack | encoders/java_args.py:300-306 | When every setting decodes from the arguments to a given number, describing them succeeds and each entry carries that number. |
| JavaArgs.DescribeAfterEncode | encoders/java_args.py:295-306 | Describing the output of `encode` reads back, for every configured setting, the number that was encoded. This holds when the values are representable and `before`/`after` carry no competing argument. |
| Scenarios.HeapValueConversion | encoders/java_args.py:236-241 | With `{min: 1, max: 6, step: 0.125}`, 1.625 GiB is written as `-XX:MaxHeapSize=1664m`, and 1.7 GiB is refused as off the step grid. |
| Scenarios.GcRatioRelaxation | encoders/java_args.py:244-250 | GCTimeRatio refuses min 1 and max 100. It accepts `{10, 90, 9}` but then refuses the value 90. |
| Scenarios.GcFloatWrittenButUnreadable | encoders/java_args.py:178-233 | GCTimeRatio with a default of 15 builds, accepts the float 15.0 and writes `-XX:GCTimeRatio=15.0`, and decoding that argument is refused as an invalid value. |
| Scenarios.DefaultWhenAbsent | encoders/java_args.py:218-233 | A configured default of 15 is returned when no argument matches. |
| Scenarios.TwoArgumentsRefused | encoders/java_args.py:208-212 | Two GCTimeRatio arguments are refused as multiple settings. |

## Left out

- The `__main__` block, YAML loading, and printing are I/O and are not modelled.
- The draft test file next to the encoder imports exception names the encoder does not
  define. Its expectations are not part of this model. Where they differ from the
  code (a `GiB` unit, refusal of unknown option keys, refusal of `{10, 90, 9}`), the
  model follows the code.
- Floats are exact reals, not IEEE doubles. `value * 1024`, `/ 1024` and `%` are exact, so
  binary rounding effects are not modelled.
- Text.FloatText: only the shape of `str(float)` matters here (a point after a digit),
  so the text is positional with at most 17 truncated fraction digits. It is not
  Python's shortest repr and has no exponent form.
- Text.ParseInt: `int()` is modelled on an optional sign and ASCII digits. The
  whitespace, underscores and non-ASCII digits Python also accepts are left out.
- A Python `bool` is an `int`. Non-numeric values are one `Str` case, and booleans are
  not modelled separately.
- Per-setting options are a dictionary or absent. In the code, `setting or {}` turns
  every falsy value (`None`, `0`, `''`, `[]`, `False`) into `{}`; the model's absent
  options stand for all of these. A truthy non-dictionary fails with AttributeError at
  the first `config.get`, which is not modelled.
- `settings` is a sequence of entries. The code's `get('settings') or {}` treats any
  falsy value as no settings (the empty sequence here). A truthy non-dictionary fails
  at `.items()`, which is not modelled.
- `before` and `after` are lists of strings. The code passes them to `ret.extend`, which
  takes any iterable: a string contributes one argument per character, and `None` or
  another non-iterable raises TypeError. Those inputs are not modelled.
- The `globals()` lookup of `<name>Setting` could find other module-level names ending
  in `Setting` (such as the base classes). The registry holds only the two concrete
  classes.
- The `NotImplementedError` checks for a missing `name`, `type` or `value_encoder`
  cannot fire for the two concrete classes and are not modelled. The one for a missing
  class bound under a relaxation lock is `SchemaDefinition`.
- Exception messages are left out, and the exception hierarchy is flattened into one
  `Error` datatype. An `IndexError` escaping `decode_option` (an empty MaxHeapSize value,
  or a matching argument without `=`) is `UncaughtIndexError`.
- JavaArgs.DescribeAfterEncode: requires distinct setting names. A Python dictionary
  guarantees this, but the sequence of entries does not.
- JavaArgs.EncodeFailure: requires distinct setting names, for the same reason.
- JavaArgs.MissingValueRefused: requires distinct setting names, for the same reason.
- JavaArgs.EncodeSettingsFirstFailure: requires distinct setting classes, which distinct
  names give.
- JavaArgs.EncodeMultiFailure: requires distinct setting classes, which distinct names give.

=== FILE: encoder.dfy ===
/** The composite Encoder and the module-level `encode` and `describe`:
    settings are built from a closed registry, arguments are assembled as
    `before ++ settings ++ after`, and current values are read back. */
module JavaArgs {
  import opened Wrappers
  import opened Numbers
  import opened Errors
  import opened Ranges
  import opened JavaOptions

  /** One entry of the `settings` dictionary; `None` options mean the class
      defaults alone. */
  datatype SettingEntry = SettingEntry(name: string, options: Option<Options>)

  /** A dictionary configuration: `settings` in their configured order, and
      the literal tokens put before and after them. */
  datatype EncoderConfig = EncoderConfig(settings: seq<SettingEntry>, before: seq<string>, after: seq<string>)

  /** The configuration object as passed in: `None`, something other than a
      dictionary, or a dictionary. */
  datatype RawConfig = NoConfig | NotMapping | Mapping(config: EncoderConfig)

  /** A constructed encoder. */
  datatype Encoder = Encoder(before: seq<string>, after: seq<string>, settings: seq<JavaOptionSetting>)

  /** The `<name>Setting` lookup, over the two setting classes. */
  function Registry(name: string): (r: Option<Kind>)
    ensures r.Some? <==> name == "MaxHeapSize" || name == "GCTimeRatio"
    ensures r.Some? ==> r.value.Name() == name
  {
    if name == "MaxHeapSize" then Some(MaxHeapSize)
    else if name == "GCTimeRatio" then Some(GCTimeRatio)
    else None
  }

  predicate DistinctNames(entries: seq<SettingEntry>) {
    forall i, j :: 0 <= i < j < |entries| ==> entries[i].name != entries[j].name
  }

  function Names(ss: seq<JavaOptionSetting>): set<string> {
    set i | 0 <= i < |ss| :: ss[i].Name()
  }

  /** The names the configuration requests. */
  function EntryNames(entries: seq<SettingEntry>): set<string> {
    set i | 0 <= i < |entries| :: entries[i].name
  }

  /** Entry `i` names a setting class, and instantiating it with the entry's
      options (`{}` when there are none) succeeds. */
  predicate EntryBuilds(entries: seq<SettingEntry>, i: int)
    requires 0 <= i < |entries|
  {
    && Registry(entries[i].name).Some?
    && NewJavaOptionSetting(Registry(entries[i].name).value, entries[i].options.GetOr(map[])).Ok?
  }

  /** The settings loop of Encoder.__init__: each entry's class is looked up
      and instantiated, in order, and the first failure is raised. */
  function BuildSettings(entries: seq<SettingEntry>): (r: Result<seq<JavaOptionSetting>, Error>)
    ensures r.Ok? ==> |r.value| == |entries|
    ensures r.Ok? ==> forall i :: 0 <= i < |entries| ==>
              && Registry(entries[i].name) == Some(r.value[i].kind)
              && r.value[i].Valid()
              && Ok(r.value[i]) == NewJavaOptionSetting(r.value[i].kind, entries[i].options.GetOr(map[]))
  {
    if |entries| == 0 then Ok([])
    else
      var entry := entries[0];
      match Registry(entry.name)
      case None => Err(UnsupportedSetting(entry.name))
      case Some(kind) =>
        var setting :- NewJavaOptionSetting(kind, entry.options.GetOr(map[]));
        var rest :- BuildSettings(entries[1..]);
        var built := [setting] + rest;
        assert forall i :: 0 < i < |entries| ==> built[i] == rest[i - 1] && entries[i] == entries[1..][i - 1];
        Ok(built)
  }

  /** The settings loop succeeds exactly when every entry builds. */
  lemma {:induction false} BuildSettingsSucceedsIff(entries: seq<SettingEntry>)
    ensures BuildSettings(entries).Ok? <==> forall i :: 0 <= i < |entries| ==> EntryBuilds(entries, i)
  {
    if |entries| > 0 {
      BuildSettingsSucceedsIff(entries[1..]);
      assert forall i :: 0 < i < |entries| ==> EntryBuilds(entries, i) == EntryBuilds(entries[1..], i - 1);
      if EntryBuilds(entries, 0) {
        assert BuildSettings(entries).Ok? == BuildSettings(entries[1..]).Ok?;
        if BuildSettings(entries[1..]).Err? {
          var j :| 0 <= j < |entries| - 1 && !EntryBuilds(entries[1..], j);
          assert !EntryBuilds(entries, j + 1);
        }
      } else {
        assert BuildSettings(entries).Err?;
      }
    }
  }

  /** Entry `i` is the first, in order, that does not build. */
  predicate FirstUnbuilt(entries: seq<SettingEntry>, i: int) {
    && 0 <= i < |entries|
    && (forall j :: 0 <= j < i ==> EntryBuilds(entries, j))
    && !EntryBuilds(entries, i)
  }

  /** What an entry that does not build raises: UnsupportedSetting for a name
      without a class, otherwise the class's own construction error. */
  function EntryError(entries: seq<SettingEntry>, i: int): Error
    requires 0 <= i < |entries| && !EntryBuilds(entries, i)
  {
    match Registry(entries[i].name)
    case None => UnsupportedSetting(entries[i].name)
    case Some(kind) => NewJavaOptionSetting(kind, entries[i].options.GetOr(map[])).error
  }

  /** The settings loop raises the error of the first entry that does not
      build, unchanged. */
  lemma {:induction false} BuildSettingsFirstFailure(entries: seq<SettingEntry>, i: int)
    requires FirstUnbuilt(entries, i)
    ensures BuildSettings(entries) == Err(EntryError(entries, i))
  {
    if i > 0 {
      assert EntryBuilds(entries, 0);
      forall j | 0 <= j < i - 1 ensures EntryBuilds(entries[1..], j) {
        assert entries[1..][j] == entries[j + 1];
        assert EntryBuilds(entries, j + 1);
      }
      assert entries[1..][i - 1] == entries[i];
      assert FirstUnbuilt(entries[1..], i - 1);
      BuildSettingsFirstFailure(entries[1..], i - 1);
      assert entries[1..][i - 1] == entries[i];
    }
  }

  /** Encoder.__init__: `None` is an empty configuration, anything other than
      a dictionary is refused, and every requested setting is built. */
  function NewEncoder(raw: RawConfig): (r: Result<Encoder, Error>)
    ensures raw.NoConfig? ==> r == Ok(Encoder([], [], []))
    ensures raw.NotMapping? ==> r == Err(ConfigNotMapping)
    ensures raw.Mapping? ==> (r.Ok? <==> forall i :: 0 <= i < |raw.config.settings| ==> EntryBuilds(raw.config.settings, i))
    ensures raw.Mapping? && r.Ok? ==>
              && r.value.before == raw.config.before && r.value.after == raw.config.after
              && |r.value.settings| == |raw.config.settings|
              && forall i :: 0 <= i < |r.value.settings| ==>
                   && r.value.settings[i].Name() == raw.config.settings[i].name && r.value.settings[i].Valid()
                   && Ok(r.value.settings[i]) == NewJavaOptionSetting(Registry(raw.config.settings[i].name).value,
                                                                     raw.config.settings[i].options.GetOr(map[]))
    ensures raw.Mapping? ==> forall i :: FirstUnbuilt(raw.config.settings, i) ==>
              r == Err(EntryError(raw.config.settings, i))
  {
    match raw
    case NoConfig => Ok(Encoder([], [], []))
    case NotMapping => Err(ConfigNotMapping)
    case Mapping(config) =>
      BuildSettingsSucceedsIff(config.settings);
      assert forall i :: FirstUnbuilt(config.settings, i) ==> BuildSettings(config.settings) == Err(EntryError(config.settings, i)) by {
        forall i | FirstUnbuilt(config.settings, i) ensures BuildSettings(config.settings) == Err(EntryError(config.settings, i)) {
          BuildSettingsFirstFailure(config.settings, i);
        }
      }
      var settings :- BuildSettings(config.settings);
      Ok(Encoder(config.before, config.after, settings))
  }

  /** A requested name without a setting class is refused, naming it, when
      every earlier entry builds. */
  lemma UnsupportedSettingRefused(config: EncoderConfig, k: nat)
    requires k < |config.settings| && Registry(config.settings[k].name).None?
    requires BuildSettings(config.settings[..k]).Ok?
    ensures NewEncoder(Mapping(config)) == Err(UnsupportedSetting(config.settings[k].name))
  {
    BuildSettingsReachesEntry(config.settings, k);
  }

  lemma {:induction false} BuildSettingsReachesEntry(entries: seq<SettingEntry>, k: nat)
    requires k < |entries| && Registry(entries[k].name).None?
    requires BuildSettings(entries[..k]).Ok?
    ensures BuildSettings(entries) == Err(UnsupportedSetting(entries[k].name))
  {
    if k > 0 {
      assert entries[1..][..k - 1] == entries[..k][1..];
      assert entries[..k][0] == entries[0];
      BuildSettingsReachesEntry(entries[1..], k - 1);
    }
  }

  /** The value supplied for a setting, `None` when there is none. */
  function Lookup(values: map<string, Val>, name: string): Val {
    if name in values then values[name] else Null
  }

  /** The settings loop of encode_multi: each setting pops its value and
      encodes it, in order; returns the tokens and the values left unconsumed. */
  function EncodeSettings(ss: seq<JavaOptionSetting>, values: map<string, Val>): (r: Result<(seq<string>, map<string, Val>), Error>)
    ensures r.Ok? ==> |r.value.0| == |ss|
    ensures r.Ok? ==> r.value.1 == values - Names(ss)
  {
    if |ss| == 0 then Ok(([], values))
    else
      var name := ss[0].Name();
      assert forall i :: 0 < i < |ss| ==> ss[i] == ss[1..][i - 1];
      var head :- EncodeOption(ss[0], Lookup(values, name));
      var rest :- EncodeSettings(ss[1..], values - {name});
      assert Names(ss) == {name} + Names(ss[1..]);
      assert (values - {name}) - Names(ss[1..]) == values - Names(ss);
      Ok((head + rest.0, rest.1))
  }

  /** Argument `i` of the loop's output starts with setting `i`'s prefix. */
  lemma {:induction false} EncodedPrefixes(ss: seq<JavaOptionSetting>, values: map<string, Val>)
    requires EncodeSettings(ss, values).Ok?
    ensures forall i :: 0 <= i < |ss| ==> ss[i].Prefix() <= EncodeSettings(ss, values).value.0[i]
  {
    if |ss| > 0 {
      var name := ss[0].Name();
      var head := EncodeOption(ss[0], Lookup(values, name)).value;
      var rest := EncodeSettings(ss[1..], values - {name}).value.0;
      EncodedPrefixes(ss[1..], values - {name});
      var tokens := EncodeSettings(ss, values).value.0;
      assert tokens == head + rest;
      forall i | 0 < i < |ss| ensures ss[i].Prefix() <= tokens[i] {
        assert tokens[i] == rest[i - 1] && ss[i] == ss[1..][i - 1];
      }
    }
  }

  /** Encoder.encode_multi: `before`, one argument per configured setting,
      `after`; values nobody consumed are refused, naming them. */
  function EncodeMulti(e: Encoder, values: map<string, Val>): (r: Result<seq<string>, Error>)
    ensures r.Ok? ==> |r.value| == |e.before| + |e.settings| + |e.after|
    ensures r.Ok? ==> r.value[..|e.before|] == e.before && r.value[|e.before| + |e.settings|..] == e.after
    ensures r.Ok? ==> values.Keys <= Names(e.settings)
  {
    var (body, left) :- EncodeSettings(e.settings, values);
    if |left| > 0 then Err(UnsupportedValues(left.Keys))
    else
      assert left.Keys == values.Keys - Names(e.settings);
      Ok(e.before + body + e.after)
  }

  /** The module-level `encode`: construction errors come first; then
      `before`, the configured settings' arguments and `after`, and only values
      for configured names are accepted. */
  function Encode(raw: RawConfig, values: map<string, Val>): (r: Result<seq<string>, Error>)
    ensures NewEncoder(raw).Err? ==> r == Err(NewEncoder(raw).error)
    ensures raw.NoConfig? ==> r == if values == map[] then Ok([]) else Err(UnsupportedValues(values.Keys))
    ensures raw.Mapping? && r.Ok? ==>
              && |r.value| == |raw.config.before| + |raw.config.settings| + |raw.config.after|
              && r.value[..|raw.config.before|] == raw.config.before
              && r.value[|r.value| - |raw.config.after|..] == raw.config.after
              && values.Keys <= EntryNames(raw.config.settings)
  {
    var e :- NewEncoder(raw);
    assert raw.Mapping? ==> Names(e.settings) == EntryNames(raw.config.settings) by {
      if raw.Mapping? {
        assert forall i :: 0 <= i < |e.settings| ==> e.settings[i].Name() == raw.config.settings[i].name;
      }
    }
    assert raw.NoConfig? ==> EncodeSettings(e.settings, values) == Ok(([], values));
    EncodeMulti(e, values)
  }

  predicate DistinctKinds(ss: seq<JavaOptionSetting>) {
    forall i, j :: 0 <= i < j < |ss| ==> ss[i].kind != ss[j].kind
  }

  /** What encode_multi's loop produces for distinct settings: it succeeds
      exactly when every setting's supplied value validates, and then writes
      one argument per setting, for the value supplied for it. */
  lemma {:induction false} EncodeSettingsExact(ss: seq<JavaOptionSetting>, values: map<string, Val>)
    requires DistinctKinds(ss)
    ensures EncodeSettings(ss, values).Ok? <==>
              forall i :: 0 <= i < |ss| ==> ValidateValue(ss[i].range, Lookup(values, ss[i].Name())).Ok?
    ensures EncodeSettings(ss, values).Ok? ==> forall i :: 0 <= i < |ss| ==>
              EncodeSettings(ss, values).value.0[i] == Token(ss[i], Lookup(values, ss[i].Name()).n)
  {
    EncodeSettingsSucceedsIff(ss, values);
    if EncodeSettings(ss, values).Ok? {
      EncodeSettingsTokens(ss, values);
    }
  }

  /** The values the rest of the loop sees, after the first setting popped
      its own, are the original ones for every later setting. */
  lemma PoppedLookup(ss: seq<JavaOptionSetting>, values: map<string, Val>)
    requires DistinctKinds(ss) && |ss| > 0
    ensures DistinctKinds(ss[1..])
    ensures forall i :: 0 < i < |ss| ==>
              ss[1..][i - 1] == ss[i] && Lookup(values - {ss[0].Name()}, ss[i].Name()) == Lookup(values, ss[i].Name())
  {
    assert forall i :: 0 <= i < |ss| - 1 ==> ss[1..][i] == ss[i + 1];
    forall i | 0 < i < |ss|
      ensures Lookup(values - {ss[0].Name()}, ss[i].Name()) == Lookup(values, ss[i].Name())
    {
      assert ss[i].kind != ss[0].kind;
    }
  }

  lemma {:induction false} EncodeSettingsSucceedsIff(ss: seq<JavaOptionSetting>, values: map<string, Val>)
    requires DistinctKinds(ss)
    ensures EncodeSettings(ss, values).Ok? <==>
              forall i :: 0 <= i < |ss| ==> ValidateValue(ss[i].range, Lookup(values, ss[i].Name())).Ok?
  {
    if |ss| > 0 {
      PoppedLookup(ss, values);
      EncodeSettingsSucceedsIff(ss[1..], values - {ss[0].Name()});
    }
  }

  lemma {:induction false} EncodeSettingsTokens(ss: seq<JavaOptionSetting>, values: map<string, Val>)
    requires DistinctKinds(ss) && EncodeSettings(ss, values).Ok?
    ensures forall i :: 0 <= i < |ss| ==>
              && Lookup(values, ss[i].Name()).Num?
              && EncodeSettings(ss, values).value.0[i] == Token(ss[i], Lookup(values, ss[i].Name()).n)
  {
    if |ss| > 0 {
      var rest := values - {ss[0].Name()};
      PoppedLookup(ss, values);
      EncodeSettingsTokens(ss[1..], rest);
      var head := EncodeOption(ss[0], Lookup(values, ss[0].Name())).value;
      var tail := EncodeSettings(ss[1..], rest).value.0;
      assert EncodeSettings(ss, values).value.0 == head + tail;
    }
  }

  /** Setting `i` is the first, in order, whose supplied value does not
      validate. */
  predicate FirstInvalid(ss: seq<JavaOptionSetting>, values: map<string, Val>, i: int) {
    && 0 <= i < |ss|
    && (forall j :: 0 <= j < i ==> ValidateValue(ss[j].range, Lookup(values, ss[j].Name())).Ok?)
    && ValidateValue(ss[i].range, Lookup(values, ss[i].Name())).Err?
  }

  /** For distinct settings, encode_multi's loop raises the validation error
      of the first setting whose supplied value does not validate. */
  lemma {:induction false} EncodeSettingsFirstFailure(ss: seq<JavaOptionSetting>, values: map<string, Val>, i: int)
    requires DistinctKinds(ss) && FirstInvalid(ss, values, i)
    ensures EncodeSettings(ss, values) == Err(ValidateValue(ss[i].range, Lookup(values, ss[i].Name())).error)
  {
    if i > 0 {
      PoppedLookup(ss, values);
      assert FirstInvalid(ss[1..], values - {ss[0].Name()}, i - 1);
      EncodeSettingsFirstFailure(ss[1..], values - {ss[0].Name()}, i - 1);
    }
  }


  /** encode: the arguments are `before`, then one `-XX:<name>=<value>` per
      configured setting in order, then `after`; the call succeeds exactly
      when every setting's value validates and every value is consumed. */
  lemma EncodeMultiExact(e: Encoder, values: map<string, Val>)
    requires DistinctKinds(e.settings)
    ensures EncodeMulti(e, values).Ok? <==>
              && (forall i :: 0 <= i < |e.settings| ==>
                    ValidateValue(e.settings[i].range, Lookup(values, e.settings[i].Name())).Ok?)
              && values.Keys <= Names(e.settings)
    ensures EncodeMulti(e, values).Ok? ==> forall i :: 0 <= i < |e.settings| ==>
              EncodeMulti(e, values).value[|e.before| + i] ==
                Token(e.settings[i], Lookup(values, e.settings[i].Name()).n)
  {
    EncodeSettingsExact(e.settings, values);
    if EncodeSettings(e.settings, values).Ok? {
      var (body, left) := EncodeSettings(e.settings, values).value;
      assert left.Keys == values.Keys - Names(e.settings);
      if EncodeMulti(e, values).Ok? {
        assert EncodeMulti(e, values).value == e.before + body + e.after;
      }
    }
  }

  /** Once every configured setting encodes, leftover values are refused with
      their keys. */
  lemma LeftoverValuesRefused(e: Encoder, values: map<string, Val>)
    requires EncodeSettings(e.settings, values).Ok?
    requires !(values.Keys <= Names(e.settings))
    ensures EncodeMulti(e, values) == Err(UnsupportedValues(values.Keys - Names(e.settings)))
  {
    var left := EncodeSettings(e.settings, values).value.1;
    assert left.Keys == values.Keys - Names(e.settings);
    var k :| k in values.Keys && k !in Names(e.settings);
    assert k in left.Keys;
    assert |left| > 0;
  }

  /** Encoder.describe: one entry per configured setting, in order. */
  function DescribeSettings(e: Encoder): (d: seq<(string, Description)>)
    ensures |d| == |e.settings|
    ensures forall i :: 0 <= i < |d| ==> d[i] == Ranges.Describe(e.settings[i].range)
  {
    seq(|e.settings|, i requires 0 <= i < |e.settings| => Ranges.Describe(e.settings[i].range))
  }

  /** A setting's description with its current value filled in. */
  function WithValue(entry: (string, Description), v: Val): (string, Description) {
    (entry.0, entry.1.(value := Some(v)))
  }

  /** The decoding loop of the module-level `describe`: each setting's value
      is read from `tokens`, in order, and the first failure aborts. */
  function ReadValues(ss: seq<JavaOptionSetting>, tokens: seq<string>): (r: Result<seq<Val>, Error>)
    ensures r.Ok? ==> |r.value| == |ss| && forall i :: 0 <= i < |ss| ==> DecodeOption(ss[i], tokens) == Ok(r.value[i])
  {
    if |ss| == 0 then Ok([])
    else
      var value :- DecodeOption(ss[0], tokens);
      var rest :- ReadValues(ss[1..], tokens);
      assert forall i :: 0 < i < |ss| ==> ss[i] == ss[1..][i - 1];
      Ok([value] + rest)
  }

  /** A failed read reports the error of the first setting, in order, that
      could not be decoded. */
  lemma {:induction false} ReadValuesFirstFailure(ss: seq<JavaOptionSetting>, tokens: seq<string>)
    requires ReadValues(ss, tokens).Err?
    ensures exists i :: && 0 <= i < |ss|
                        && (forall j :: 0 <= j < i ==> DecodeOption(ss[j], tokens).Ok?)
                        && DecodeOption(ss[i], tokens).Err?
                        && ReadValues(ss, tokens).error == DecodeOption(ss[i], tokens).error
  {
    if DecodeOption(ss[0], tokens).Ok? {
      var rest := ReadValues(ss[1..], tokens);
      assert rest.Err? && ReadValues(ss, tokens).error == rest.error;
      ReadValuesFirstFailure(ss[1..], tokens);
      var k :| && 0 <= k < |ss| - 1
               && (forall j :: 0 <= j < k ==> DecodeOption(ss[1..][j], tokens).Ok?)
               && DecodeOption(ss[1..][k], tokens).Err?
               && rest.error == DecodeOption(ss[1..][k], tokens).error;
      forall j | 0 <= j < k + 1 ensures DecodeOption(ss[j], tokens).Ok? {
        if j > 0 {
          assert ss[j] == ss[1..][j - 1];
        }
      }
      assert ss[k + 1] == ss[1..][k];
    }
  }

  /** The module-level `describe`: the encoder's description, with each
      setting's entry given the value decoded from `tokens`. */
  function Describe(raw: RawConfig, tokens: seq<string>): (r: Result<seq<(string, Description)>, Error>)
    ensures raw.NoConfig? ==> r == Ok([])
    ensures NewEncoder(raw).Err? ==> r == Err(NewEncoder(raw).error)
    ensures NewEncoder(raw).Ok? ==>
              var ss := NewEncoder(raw).value.settings;
              && (r.Ok? <==> forall i :: 0 <= i < |ss| ==> DecodeOption(ss[i], tokens).Ok?)
              && (r.Ok? ==> |r.value| == |ss| && forall i :: 0 <= i < |ss| ==>
                    && r.value[i].0 == ss[i].Name()
                    && r.value[i].1 == Ranges.Describe(ss[i].range).1.(value := Some(DecodeOption(ss[i], tokens).value)))
  {
    var e :- NewEncoder(raw);
    var described := DescribeSettings(e);
    assert ReadValues(e.settings, tokens).Err? ==>
             exists i :: 0 <= i < |e.settings| && DecodeOption(e.settings[i], tokens).Err? by {
      if ReadValues(e.settings, tokens).Err? {
        ReadValuesFirstFailure(e.settings, tokens);
      }
    }
    var values :- ReadValues(e.settings, tokens);
    Ok(seq(|described|, i requires 0 <= i < |described| => WithValue(described[i], values[i])))
  }

  /** Distinct configured names give settings of distinct kinds. */
  lemma DistinctKindsOfConfig(config: EncoderConfig)
    requires DistinctNames(config.settings)
    requires NewEncoder(Mapping(config)).Ok?
    ensures DistinctKinds(NewEncoder(Mapping(config)).value.settings)
  {
  }

  /** encode_multi raises the validation error of the first setting whose
      supplied value does not validate; only when every value validates are
      values nobody consumed refused. */
  lemma EncodeMultiFailure(e: Encoder, values: map<string, Val>)
    requires DistinctKinds(e.settings)
    ensures forall i :: FirstInvalid(e.settings, values, i) ==>
              EncodeMulti(e, values) == Err(ValidateValue(e.settings[i].range, Lookup(values, e.settings[i].Name())).error)
    ensures && (forall i :: 0 <= i < |e.settings| ==> ValidateValue(e.settings[i].range, Lookup(values, e.settings[i].Name())).Ok?)
            && !(values.Keys <= Names(e.settings)) ==>
              EncodeMulti(e, values) == Err(UnsupportedValues(values.Keys - Names(e.settings)))
  {
    forall i | FirstInvalid(e.settings, values, i)
      ensures EncodeMulti(e, values) == Err(ValidateValue(e.settings[i].range, Lookup(values, e.settings[i].Name())).error)
    {
      EncodeSettingsFirstFailure(e.settings, values, i);
    }
    EncodeSettingsSucceedsIff(e.settings, values);
    if EncodeSettings(e.settings, values).Ok? && !(values.Keys <= Names(e.settings)) {
      LeftoverValuesRefused(e, values);
    }
  }

  /** On a dictionary that builds, the module-level `encode` is the
      encoder's `encode_multi`, and the encoder's names are the configured ones. */
  lemma EncodeOfMapping(config: EncoderConfig, values: map<string, Val>)
    requires NewEncoder(Mapping(config)).Ok?
    ensures Encode(Mapping(config), values) == EncodeMulti(NewEncoder(Mapping(config)).value, values)
    ensures Names(NewEncoder(Mapping(config)).value.settings) == EntryNames(config.settings)
  {
    var e := NewEncoder(Mapping(config)).value;
    assert forall i :: 0 <= i < |e.settings| ==> e.settings[i].Name() == config.settings[i].name;
  }

  /** The module-level `encode` on a dictionary that builds keeps value errors
      apart from configuration errors and reports them in the order the code
      meets them: the first configured setting whose supplied value does not
      validate; only then values nobody consumed. */
  lemma EncodeFailure(config: EncoderConfig, values: map<string, Val>)
    requires DistinctNames(config.settings) && NewEncoder(Mapping(config)).Ok?
    ensures var ss := NewEncoder(Mapping(config)).value.settings;
            forall i :: FirstInvalid(ss, values, i) ==>
              Encode(Mapping(config), values) == Err(ValidateValue(ss[i].range, Lookup(values, ss[i].Name())).error)
    ensures var ss := NewEncoder(Mapping(config)).value.settings;
            && (forall i :: 0 <= i < |ss| ==> ValidateValue(ss[i].range, Lookup(values, ss[i].Name())).Ok?)
            && !(values.Keys <= EntryNames(config.settings)) ==>
              Encode(Mapping(config), values) == Err(UnsupportedValues(values.Keys - EntryNames(config.settings)))
  {
    DistinctKindsOfConfig(config);
    EncodeOfMapping(config, values);
    EncodeMultiFailure(NewEncoder(Mapping(config)).value, values);
  }

  /** A configured setting with no supplied value is refused as
      NoValueToEncode, naming it, once the settings before it validate. */
  lemma MissingValueRefused(config: EncoderConfig, values: map<string, Val>, k: nat)
    requires DistinctNames(config.settings) && NewEncoder(Mapping(config)).Ok?
    requires k < |config.settings| && config.settings[k].name !in values
    requires var ss := NewEncoder(Mapping(config)).value.settings;
             forall j :: 0 <= j < k ==> ValidateValue(ss[j].range, Lookup(values, ss[j].Name())).Ok?
    ensures Encode(Mapping(config), values) == Err(NoValueToEncode(config.settings[k].name))
  {
    var ss := NewEncoder(Mapping(config)).value.settings;
    assert ss[k].Name() == config.settings[k].name;
    assert ss[k].range.Name() == ss[k].Name();
    assert FirstInvalid(ss, values, k);
    EncodeFailure(config, values);
  }

  /** Setting `i` is the first, in order, whose value cannot be read from
      `tokens`. */
  predicate FirstUndecodable(ss: seq<JavaOptionSetting>, tokens: seq<string>, i: int) {
    && 0 <= i < |ss|
    && (forall j :: 0 <= j < i ==> DecodeOption(ss[j], tokens).Ok?)
    && DecodeOption(ss[i], tokens).Err?
  }

  /** The decoding loop raises the error of the first setting that cannot be
      read, unchanged. */
  lemma {:induction false} ReadValuesStopsAt(ss: seq<JavaOptionSetting>, tokens: seq<string>, i: int)
    requires FirstUndecodable(ss, tokens, i)
    ensures ReadValues(ss, tokens) == Err(DecodeOption(ss[i], tokens).error)
  {
    if i > 0 {
      assert forall j :: 0 < j < |ss| ==> ss[1..][j - 1] == ss[j];
      assert FirstUndecodable(ss[1..], tokens, i - 1);
      ReadValuesStopsAt(ss[1..], tokens, i - 1);
    }
  }

  /** The module-level `describe` reports the first entry that does not
      build, and otherwise the decode error of the first setting that cannot
      be read; a decode error is never reported as a configuration error. */
  lemma DescribeFailure(raw: RawConfig, tokens: seq<string>)
    ensures raw.Mapping? ==> forall i :: FirstUnbuilt(raw.config.settings, i) ==>
              Describe(raw, tokens) == Err(EntryError(raw.config.settings, i))
    ensures NewEncoder(raw).Ok? ==>
              var ss := NewEncoder(raw).value.settings;
              forall i :: FirstUndecodable(ss, tokens, i) ==> Describe(raw, tokens) == Err(DecodeOption(ss[i], tokens).error)
  {
    if NewEncoder(raw).Ok? {
      var ss := NewEncoder(raw).value.settings;
      forall i | FirstUndecodable(ss, tokens, i)
        ensures Describe(raw, tokens) == Err(DecodeOption(ss[i], tokens).error)
      {
        ReadValuesStopsAt(ss, tokens, i);
      }
    }
  }

  /** No token of `ts` starts with the prefix of any configured kind. */
  predicate ForeignTokens(ts: seq<string>, ss: seq<JavaOptionSetting>) {
    forall i :: 0 <= i < |ss| ==> Matches(ts, ss[i].Prefix()) == []
  }

  /** In `before ++ written arguments ++ after`, where neither `before` nor
      `after` has a token with setting `i`'s prefix, the argument written for
      setting `i` is the only one that has it. */
  lemma SoleOwnArgument(before: seq<string>, body: seq<string>, after: seq<string>,
                        ss: seq<JavaOptionSetting>, i: nat)
    requires DistinctKinds(ss) && i < |ss| && |body| == |ss|
    requires forall j :: 0 <= j < |ss| ==> ss[j].Prefix() <= body[j]
    requires Matches(before, ss[i].Prefix()) == [] && Matches(after, ss[i].Prefix()) == []
    ensures Matches(before + body + after, ss[i].Prefix()) == [body[i]]
  {
    var p := ss[i].Prefix();
    forall j | 0 <= j < |body| && j != i
      ensures !(p <= body[j])
    {
      PrefixesExclusive(ss[j], ss[i], body[j]);
    }
    MatchesSingle(body, p, i);
    MatchesAppend(before, body, p);
    MatchesAppend(before + body, after, p);
  }

  /** After a successful encode_multi, the argument written for setting `i`
      is the only one carrying that setting's prefix. */
  lemma OwnArgumentOnly(e: Encoder, values: map<string, Val>, i: nat)
    requires DistinctKinds(e.settings) && EncodeMulti(e, values).Ok? && i < |e.settings|
    requires ForeignTokens(e.before, e.settings) && ForeignTokens(e.after, e.settings)
    ensures Lookup(values, e.settings[i].Name()).Num?
    ensures Matches(EncodeMulti(e, values).value, e.settings[i].Prefix()) ==
              [Token(e.settings[i], Lookup(values, e.settings[i].Name()).n)]
  {
    var body := EncodeSettings(e.settings, values).value.0;
    assert EncodeMulti(e, values).value == e.before + body + e.after;
    EncodedPrefixes(e.settings, values);
    SoleOwnArgument(e.before, body, e.after, e.settings, i);
    EncodeSettingsExact(e.settings, values);
    assert ValidateValue(e.settings[i].range, Lookup(values, e.settings[i].Name())).Ok?;
  }

  /** After a successful encode_multi, decoding setting `i` from the output
      reads back the number supplied for it, when that number is representable. */
  lemma ReadBack(e: Encoder, values: map<string, Val>, i: nat)
    requires DistinctKinds(e.settings) && EncodeMulti(e, values).Ok? && i < |e.settings|
    requires ForeignTokens(e.before, e.settings) && ForeignTokens(e.after, e.settings)
    requires var v := Lookup(values, e.settings[i].Name()); v.Num? && e.settings[i].kind.Representable(v.n)
    ensures DecodeOption(e.settings[i], EncodeMulti(e, values).value).Ok?
    ensures SameNumber(DecodeOption(e.settings[i], EncodeMulti(e, values).value).value,
                       Lookup(values, e.settings[i].Name()))
  {
    OwnArgumentOnly(e, values, i);
    DecodeSoleMatch(e.settings[i], EncodeMulti(e, values).value, Lookup(values, e.settings[i].Name()).n);
  }

  /** After a successful encode_multi, every setting reads back the number
      supplied for it, when all supplied numbers are representable. */
  lemma ReadAllBack(e: Encoder, values: map<string, Val>)
    requires DistinctKinds(e.settings) && EncodeMulti(e, values).Ok?
    requires ForeignTokens(e.before, e.settings) && ForeignTokens(e.after, e.settings)
    requires forall i :: 0 <= i < |e.settings| ==>
               var v := Lookup(values, e.settings[i].Name()); v.Num? && e.settings[i].kind.Representable(v.n)
    ensures forall i :: 0 <= i < |e.settings| ==>
              && DecodeOption(e.settings[i], EncodeMulti(e, values).value).Ok?
              && SameNumber(DecodeOption(e.settings[i], EncodeMulti(e, values).value).value,
                            Lookup(values, e.settings[i].Name()))
  {
    forall i | 0 <= i < |e.settings|
      ensures DecodeOption(e.settings[i], EncodeMulti(e, values).value).Ok?
      ensures SameNumber(DecodeOption(e.settings[i], EncodeMulti(e, values).value).value,
                         Lookup(values, e.settings[i].Name()))
    {
      ReadBack(e, values, i);
    }
  }

  /** When every setting's value decodes from `tokens` to the number
      `values` holds for it, describing `tokens` reports those numbers. */
  lemma DescribeReadsBack(raw: RawConfig, tokens: seq<string>, values: map<string, Val>)
    requires NewEncoder(raw).Ok?
    requires var ss := NewEncoder(raw).value.settings;
             forall i :: 0 <= i < |ss| ==>
               && DecodeOption(ss[i], tokens).Ok?
               && SameNumber(DecodeOption(ss[i], tokens).value, Lookup(values, ss[i].Name()))
    ensures Describe(raw, tokens).Ok?
    ensures var ss := NewEncoder(raw).value.settings;
            var d := Describe(raw, tokens).value;
            |d| == |ss| && forall i :: 0 <= i < |ss| ==>
              && d[i].0 == ss[i].Name()
              && d[i].1.value.Some?
              && SameNumber(d[i].1.value.value, Lookup(values, ss[i].Name()))
  {
  }

  /** Round trip of the whole encoder: describing the arguments that encode
      produced reads back, for every configured setting in order, the number
      that was encoded, when `before` and `after` carry no competing argument
      and each value is representable by its transcoder. */
  lemma DescribeAfterEncode(config: EncoderConfig, values: map<string, Val>)
    requires DistinctNames(config.settings)
    requires Encode(Mapping(config), values).Ok?
    requires forall k :: 0 <= k < |config.settings| ==> Registry(config.settings[k].name).Some?
    requires forall k :: 0 <= k < |config.settings| ==>
               var name := config.settings[k].name;
               name in values && values[name].Num? && Registry(name).value.Representable(values[name].n)
    requires ForeignTokens(config.before, NewEncoder(Mapping(config)).value.settings)
    requires ForeignTokens(config.after, NewEncoder(Mapping(config)).value.settings)
    ensures Describe(Mapping(config), Encode(Mapping(config), values).value).Ok?
    ensures var d := Describe(Mapping(config), Encode(Mapping(config), values).value).value;
            forall k :: 0 <= k < |config.settings| ==>
              && d[k].0 == config.settings[k].name
              && d[k].1.value.Some?
              && SameNumber(d[k].1.value.value, values[config.settings[k].name])
  {
    var e := NewEncoder(Mapping(config)).value;
    DistinctKindsOfConfig(config);
    EncodeOfMapping(config, values);
    forall i | 0 <= i < |e.settings|
      ensures Lookup(values, e.settings[i].Name()) == values[config.settings[i].name]
      ensures e.settings[i].kind.Representable(values[config.settings[i].name].n)
    {
      assert Registry(config.settings[i].name).value == e.settings[i].kind;
    }
    ReadAllBack(e, values);
    var tokens := EncodeMulti(e, values).value;
    DescribeReadsBack(Mapping(config), tokens, values);
    var d := Describe(Mapping(config), tokens).value;
    forall k | 0 <= k < |config.settings|
      ensures d[k].0 == config.settings[k].name && d[k].1.value.Some?
      ensures SameNumber(d[k].1.value.value, values[config.settings[k].name])
    {
      assert e.settings[k].Name() == config.settings[k].name;
    }
  }
}

=== FILE: errors.dfy ===
/** The encoder's exceptions, flattened into one sum type. Each variant names
    the setting it is about, where the raising code does. */
module Errors {

  datatype Error =
    // The top-level configuration is neither `None` nor a dictionary.
    | ConfigNotMapping
    // No `<name>Setting` handler exists for a requested setting.
    | UnsupportedSetting(name: string)
    // A setting class forbids relaxation but has no built-in bound to compare with.
    | SchemaDefinition(setting: string)
    // Configuration errors raised while a setting is constructed.
    | NoLowerBound(setting: string)
    | NoUpperBound(setting: string)
    | NoStep(setting: string)
    | InvalidType(setting: string)
    | BoundariesCollision(setting: string)
    | InvalidStepValue(setting: string)
    | NoLowerBoundRelaxationAllowed(setting: string)
    | NoUpperBoundRelaxationAllowed(setting: string)
    // Value errors raised while a value is validated for encoding.
    | NoValueToEncode(setting: string)
    | LowerBoundViolation(setting: string)
    | UpperBoundViolation(setting: string)
    | ValueStepRemainder(setting: string)
    // Errors raised while a current value is read back from tokens.
    | MultipleSettings(setting: string)
    | NoValueToDecode(setting: string)
    | InvalidValue(setting: string, token: string)
    // Values were supplied for settings the encoder was not configured with.
    | UnsupportedValues(keys: set<string>)
    // Python's `IndexError`, which the encoder does not catch.
    | UncaughtIndexError
}

=== FILE: java_options.dfy ===
/** JavaOptionSetting: a range setting bound to one `-XX:<name>=<value>`
    argument, and the two concrete settings MaxHeapSize and GCTimeRatio. */
module JavaOptions {
  import opened Wrappers
  import opened Numbers
  import opened Errors
  import opened Text
  import opened Transcoders
  import opened Ranges

  /** The concrete setting classes. */
  datatype Kind = MaxHeapSize | GCTimeRatio {

    function Name(): string {
      match this
      case MaxHeapSize => "MaxHeapSize"
      case GCTimeRatio => "GCTimeRatio"
    }

    /** The class constants: MaxHeapSize is in gigabytes from 0.5 in steps of
        0.125 with no built-in max; GCTimeRatio is fixed to [9, 99] in steps of
        1 and may not be relaxed. */
    function Builtin(): (s: Schema)
      ensures s.name == Name()
      ensures s.min.Some? && s.step.Some? && s.step.value.Real() > 0.0
      ensures this == MaxHeapSize ==> s.canRelax && s.max.None? && s.unit == "gigabytes"
      ensures this == GCTimeRatio ==> !s.canRelax && s.max.Some? && s.min.value.Real() <= s.max.value.Real()
      ensures this == MaxHeapSize ==> s.min == Some(Float(0.5)) && s.step == Some(Float(0.125))
      ensures this == GCTimeRatio ==> s.min == Some(Int(9)) && s.max == Some(Int(99)) && s.step == Some(Int(1)) && s.unit == ""
    {
      match this
      case MaxHeapSize => Schema("MaxHeapSize", "gigabytes", Some(Float(0.5)), None, Some(Float(0.125)), true)
      case GCTimeRatio => Schema("GCTimeRatio", "", Some(Int(9)), Some(Int(99)), Some(Int(1)), false)
    }

    /** The class's `value_encoder.encode`. */
    function EncodeValue(n: Number): string {
      match this
      case MaxHeapSize => GbToMb(n)
      case GCTimeRatio => IntToStr(n)
    }

    /** The class's `value_encoder.decode`. */
    function DecodeValue(data: string): Result<Number, DecodeError> {
      match this
      case MaxHeapSize => MbToGb(data)
      case GCTimeRatio => StrToInt(data)
    }

    /** The values whose encoding decodes back to the same number. */
    predicate Representable(n: Number) {
      match this
      case MaxHeapSize => WholeMegabytes(n)
      case GCTimeRatio => n.Int?
    }
  }

  /** The leading text of every argument this encoder writes or reads. */
  const Marker := "-XX:"

  /** A constructed setting of one kind. */
  datatype JavaOptionSetting = JavaOptionSetting(kind: Kind, range: RangeSetting) {

    function Name(): string {
      kind.Name()
    }

    /** The text an argument for this setting starts with. */
    function Prefix(): string {
      Marker + Name()
    }

    predicate Valid() {
      range.schema == kind.Builtin() && range.Valid()
    }
  }

  /** Instantiating the setting class of `kind` with per-setting options. */
  function NewJavaOptionSetting(kind: Kind, opts: Options): (r: Result<JavaOptionSetting, Error>)
    ensures r.Ok? ==> r.value.Valid() && r.value.kind == kind
    ensures r.Ok? ==> Ok(r.value.range) == NewRangeSetting(kind.Builtin(), opts)
    ensures r.Err? <==> NewRangeSetting(kind.Builtin(), opts).Err?
    ensures r.Err? ==> r.error == NewRangeSetting(kind.Builtin(), opts).error
  {
    var range :- NewRangeSetting(kind.Builtin(), opts);
    Ok(JavaOptionSetting(kind, range))
  }

  /** The class constants as construction resolves them from empty options:
      GCTimeRatio is [9, 99] in steps of 1; MaxHeapSize has no built-in max,
      so it needs one, and then starts at 0.5 GiB in steps of 0.125 GiB. */
  lemma ClassDefaults(max: Number)
    requires max.Real() >= 0.5
    ensures NewJavaOptionSetting(GCTimeRatio, map[])
            == Ok(JavaOptionSetting(GCTimeRatio, RangeSetting(GCTimeRatio.Builtin(), Int(9), Int(99), Int(1), Null)))
    ensures NewJavaOptionSetting(MaxHeapSize, map[]) == Err(NoUpperBound("MaxHeapSize"))
    ensures NewJavaOptionSetting(MaxHeapSize, map["max" := Num(max)])
            == Ok(JavaOptionSetting(MaxHeapSize, RangeSetting(MaxHeapSize.Builtin(), Float(0.5), max, Float(0.125), Null)))
  {
    var opts := map["max" := Num(max)];
    assert Resolve(opts, "min", Some(Float(0.5))) == Num(Float(0.5));
    assert Resolve(opts, "max", None) == Num(max);
    assert Resolve(opts, "step", Some(Float(0.125))) == Num(Float(0.125));
    assert Resolve(opts, "default", None) == Null;
  }

  /** A relaxation-locked class never reaches the missing-built-in-bound error. */
  lemma NoSchemaDefinitionError(kind: Kind, opts: Options)
    ensures NewJavaOptionSetting(kind, opts) != Err(SchemaDefinition(kind.Name()))
  {
  }

  /** The single argument a valid value is written as. */
  function Token(o: JavaOptionSetting, n: Number): string {
    o.Prefix() + "=" + o.kind.EncodeValue(n)
  }

  /** JavaOptionSetting.encode_option: validate, then write one argument. */
  function EncodeOption(o: JavaOptionSetting, v: Val): (r: Result<seq<string>, Error>)
    ensures r.Ok? <==> ValidateValue(o.range, v).Ok?
    ensures r.Err? ==> r.error == ValidateValue(o.range, v).error
    ensures r.Ok? ==> |r.value| == 1 && o.Prefix() <= r.value[0]
    ensures r.Ok? ==> v.Num? && r.value[0] == Token(o, v.n)
  {
    var n :- ValidateValue(o.range, v);
    Ok([Token(o, n)])
  }

  /** The tokens that start with `prefix`, in order. */
  function Matches(tokens: seq<string>, prefix: string): (r: seq<string>)
    ensures |r| <= |tokens|
    ensures forall t :: t in r <==> t in tokens && prefix <= t
    ensures forall t :: multiset(r)[t] == if prefix <= t then multiset(tokens)[t] else 0
  {
    if |tokens| == 0 then []
    else
      assert tokens == [tokens[0]] + tokens[1..];
      (if prefix <= tokens[0] then [tokens[0]] else []) + Matches(tokens[1..], prefix)
  }

  lemma {:induction false} MatchesAppend(a: seq<string>, b: seq<string>, prefix: string)
    ensures Matches(a + b, prefix) == Matches(a, prefix) + Matches(b, prefix)
  {
    if |a| > 0 {
      assert (a + b)[1..] == a[1..] + b;
      MatchesAppend(a[1..], b, prefix);
    } else {
      assert a + b == b;
    }
  }

  /** Tokens none of which starts with `prefix` have no match. */
  lemma NoMatches(tokens: seq<string>, prefix: string)
    requires forall k :: 0 <= k < |tokens| ==> !(prefix <= tokens[k])
    ensures Matches(tokens, prefix) == []
  {
  }

  /** JavaOptionSetting.validate_data: at most one matching argument, and
      none only when a default is configured. */
  function ValidateData(o: JavaOptionSetting, tokens: seq<string>): (r: Result<seq<string>, Error>)
    ensures r.Ok? <==> |Matches(tokens, o.Prefix())| <= 1 && (Matches(tokens, o.Prefix()) != [] || !o.range.default.Null?)
    ensures r.Ok? ==> r.value == Matches(tokens, o.Prefix())
    ensures |Matches(tokens, o.Prefix())| > 1 ==> r == Err(MultipleSettings(o.Name()))
    ensures Matches(tokens, o.Prefix()) == [] && o.range.default.Null? ==> r == Err(NoValueToDecode(o.Name()))
  {
    var found := Matches(tokens, o.Prefix());
    if |found| > 1 then Err(MultipleSettings(o.Name()))
    else if found == [] && o.range.default.Null? then Err(NoValueToDecode(o.Name()))
    else Ok(found)
  }

  /** JavaOptionSetting.decode_option: the value of the one matching
      argument, or the default when none matches. */
  function DecodeOption(o: JavaOptionSetting, tokens: seq<string>): (r: Result<Val, Error>)
    ensures |Matches(tokens, o.Prefix())| > 1 ==> r == Err(MultipleSettings(o.Name()))
    ensures Matches(tokens, o.Prefix()) == [] ==>
              r == (if o.range.default.Null? then Err(NoValueToDecode(o.Name())) else Ok(o.range.default))
    ensures |Matches(tokens, o.Prefix())| == 1 && r.Ok? ==> r.value.Num?
    ensures r.Err? && r.error.InvalidValue? ==> r.error.token in tokens && o.Prefix() <= r.error.token
  {
    var opts :- ValidateData(o, tokens);
    if opts != [] then
      var opt := opts[0];
      match AfterFirstEquals(opt)
      case None => Err(UncaughtIndexError)
      case Some(data) =>
        match o.kind.DecodeValue(data)
        case Ok(n) => Ok(Num(n))
        case Err(ValueError) => Err(InvalidValue(o.Name(), opt))
        case Err(IndexError) => Err(UncaughtIndexError)
    else Ok(o.range.default)
  }

  /** The outcome of decoding from arguments of which exactly one, `t`,
      carries the setting's prefix: the transcoder's reading of the text after
      the first `=`, with a `ValueError` reported as an invalid value naming
      `t`, and a missing `=` or empty megabyte text escaping as `IndexError`. */
  lemma SingleMatchOutcome(o: JavaOptionSetting, tokens: seq<string>, t: string)
    requires Matches(tokens, o.Prefix()) == [t]
    ensures AfterFirstEquals(t).None? ==> DecodeOption(o, tokens) == Err(UncaughtIndexError)
    ensures AfterFirstEquals(t).Some? ==>
              var decoded := o.kind.DecodeValue(AfterFirstEquals(t).value);
              && (decoded.Ok? ==> DecodeOption(o, tokens) == Ok(Num(decoded.value)))
              && (decoded == Err(ValueError) ==> DecodeOption(o, tokens) == Err(InvalidValue(o.Name(), t)))
              && (decoded == Err(IndexError) ==> DecodeOption(o, tokens) == Err(UncaughtIndexError))
  {
  }

  /** Two arguments for one setting are refused, even when they agree. */
  lemma DuplicateArgumentRefused(o: JavaOptionSetting, t: string)
    requires o.Prefix() <= t
    ensures DecodeOption(o, [t, t]) == Err(MultipleSettings(o.Name()))
  {
    assert [t, t] == [t] + [t];
    MatchesAppend([t], [t], o.Prefix());
  }

  /** The argument written for a value is found again by its setting's prefix. */
  lemma TokenMatchesOwnPrefix(o: JavaOptionSetting, n: Number)
    ensures Matches([Token(o, n)], o.Prefix()) == [Token(o, n)]
  {
    assert o.Prefix() <= Token(o, n);
  }

  /** No text starts with the prefixes of two different kinds. */
  lemma PrefixesExclusive(o: JavaOptionSetting, other: JavaOptionSetting, t: string)
    requires o.kind != other.kind && o.Prefix() <= t
    ensures !(other.Prefix() <= t)
  {
    assert t[4] == o.Prefix()[4] == o.Name()[0];
    assert other.Prefix()[4] == other.Name()[0];
  }

  /** The value part of `<prefix>=<data>` is `data`: setting names hold no `=`. */
  lemma ValueAfterPrefix(o: JavaOptionSetting, data: string)
    ensures AfterFirstEquals(o.Prefix() + "=" + data) == Some(data)
  {
    var t := o.Prefix() + "=" + data;
    var k := |o.Prefix()|;
    assert t[k] == '=';
    assert forall j :: 0 <= j < k ==> t[j] == o.Prefix()[j];
    assert forall j :: 0 <= j < |o.Name()| ==> o.Name()[j] != '=';
    assert IndexOf(t, '=') == Some(k);
    assert t[k + 1..] == data;
  }

  /** The value part of an argument written for a value is the encoded value. */
  lemma ValueOfToken(o: JavaOptionSetting, n: Number)
    ensures AfterFirstEquals(Token(o, n)) == Some(o.kind.EncodeValue(n))
  {
    ValueAfterPrefix(o, o.kind.EncodeValue(n));
  }

  /** Exactly one token, the `k`-th, starts with `prefix`. */
  lemma {:induction false} MatchesSingle(tokens: seq<string>, prefix: string, k: nat)
    requires k < |tokens| && prefix <= tokens[k]
    requires forall j :: 0 <= j < |tokens| && j != k ==> !(prefix <= tokens[j])
    ensures Matches(tokens, prefix) == [tokens[k]]
  {
    if k == 0 {
      NoMatches(tokens[1..], prefix);
    } else {
      MatchesSingle(tokens[1..], prefix, k - 1);
    }
  }

  /** Reading back from arguments in which the only one with this setting's
      prefix is the one written for a representable number gives that number. */
  lemma DecodeSoleMatch(o: JavaOptionSetting, tokens: seq<string>, n: Number)
    requires o.kind.Representable(n)
    requires Matches(tokens, o.Prefix()) == [Token(o, n)]
    ensures DecodeOption(o, tokens).Ok?
    ensures SameNumber(DecodeOption(o, tokens).value, Num(n))
    ensures o.kind == GCTimeRatio ==> DecodeOption(o, tokens) == Ok(Num(n))
  {
    ValueOfToken(o, n);
    match o.kind
    case MaxHeapSize => MegabytesRoundTrip(n);
    case GCTimeRatio => IntRoundTrip(n.i);
  }

  /** Round trip of one setting: a representable valid value, written among
      arguments that no other token with this prefix accompanies, is read back
      as the same number. */
  lemma DecodeEncodedOption(o: JavaOptionSetting, n: Number, before: seq<string>, after: seq<string>)
    requires ValidateValue(o.range, Num(n)).Ok?
    requires o.kind.Representable(n)
    requires Matches(before, o.Prefix()) == [] && Matches(after, o.Prefix()) == []
    ensures EncodeOption(o, Num(n)) == Ok([Token(o, n)])
    ensures DecodeOption(o, before + EncodeOption(o, Num(n)).value + after).Ok?
    ensures SameNumber(DecodeOption(o, before + EncodeOption(o, Num(n)).value + after).value, Num(n))
    ensures o.kind == GCTimeRatio ==> DecodeOption(o, before + EncodeOption(o, Num(n)).value + after) == Ok(Num(n))
  {
    var t := Token(o, n);
    MatchesAppend(before, [t], o.Prefix());
    MatchesAppend(before + [t], after, o.Prefix());
    TokenMatchesOwnPrefix(o, n);
    DecodeSoleMatch(o, before + [t] + after, n);
  }

  /** A sole GCTimeRatio argument whose value is not an integer is refused,
      naming the argument. */
  lemma GcRatioUnreadable(o: JavaOptionSetting, data: string)
    requires o.kind == GCTimeRatio && ParseInt(data).None?
    ensures DecodeOption(o, [o.Prefix() + "=" + data]) == Err(InvalidValue("GCTimeRatio", o.Prefix() + "=" + data))
  {
    var t := o.Prefix() + "=" + data;
    assert o.Prefix() <= t;
    ValueAfterPrefix(o, data);
  }

  /** A sole MaxHeapSize argument whose value does not end in `m` or `M`
      (`-XX:MaxHeapSize=5.2g`) is refused, naming the argument. */
  lemma HeapWrongUnitUnreadable(o: JavaOptionSetting, data: string)
    requires o.kind == MaxHeapSize && |data| > 0 && data[|data| - 1] !in "mM"
    ensures DecodeOption(o, [o.Prefix() + "=" + data]) == Err(InvalidValue("MaxHeapSize", o.Prefix() + "=" + data))
  {
    var t := o.Prefix() + "=" + data;
    assert o.Prefix() <= t;
    ValueAfterPrefix(o, data);
  }

  /** A float value for GCTimeRatio passes validation yet is written with a
      decimal point, so reading it back raises InvalidValue. */
  lemma GcRatioFloatUnreadable(o: JavaOptionSetting, f: real)
    requires o.kind == GCTimeRatio
    ensures DecodeOption(o, [Token(o, Float(f))]) == Err(InvalidValue("GCTimeRatio", Token(o, Float(f))))
  {
    TokenMatchesOwnPrefix(o, Float(f));
    ValueOfToken(o, Float(f));
    FloatDoesNotRoundTrip(f);
  }
  /** A float GCTimeRatio inside the range and on the step grid (such as
      `15.0`) is accepted and written, yet the argument written for it cannot
      be read back: encode succeeds where describe then fails. */
  lemma GcRatioFloatAcceptedThenUnreadable(o: JavaOptionSetting, f: real)
    requires o.kind == GCTimeRatio && o.Valid() && Ranges.Admits(o.range, f)
    ensures EncodeOption(o, Num(Float(f))) == Ok([Token(o, Float(f))])
    ensures DecodeOption(o, EncodeOption(o, Num(Float(f))).value).Err?
  {
    Ranges.ValidateValueAdmits(o.range, Num(Float(f)));
    GcRatioFloatUnreadable(o, f);
  }

}

=== FILE: numbers.dfy ===
/** The dynamically typed values that flow through the encoder. */
module Numbers {

  /** A Python number: an `int` or a `float`. Floats are read as exact reals. */
  datatype Number = Int(i: int) | Float(f: real) {

    /** The numeric value; Python compares `int` and `float` by this value. */
    function Real(): real {
      match this
      case Int(i) => i as real
      case Float(f) => f
    }
  }

  /** A configuration entry or a value handed to the encoder: `None`, a
      number, or anything else (a string stands for every non-numeric value). */
  datatype Val = Null | Num(n: Number) | Str(s: string)

  /** Two values that Python's `==` treats as the same number (`4 == 4.0`). */
  predicate SameNumber(a: Val, b: Val) {
    a.Num? && b.Num? && a.n.Real() == b.n.Real()
  }
}

=== FILE: ranges.dfy ===
/** RangeSetting: a bounded numeric setting. Caller options are merged over
    the setting class's built-in constants, checked once at construction, and
    candidate values are validated against the resulting min, max and step. */
module Ranges {
  import opened Wrappers
  import opened Numbers
  import opened Errors

  /** One setting's caller options (`min`, `max`, `step`, `default`, ...). A key
      that is present with value `None` differs from an absent key. */
  type Options = map<string, Val>

  /** The class-level constants of a range setting. */
  datatype Schema = Schema(
    name: string,
    unit: string,
    min: Option<Number>,
    max: Option<Number>,
    step: Option<Number>,
    canRelax: bool)

  /** A constructed range setting: the resolved bounds and step, and the
      configured default (`Null` when there is none). */
  datatype RangeSetting = RangeSetting(schema: Schema, min: Number, max: Number, step: Number, default: Val) {

    function Name(): string {
      schema.name
    }

    /** What construction guarantees: ordered bounds, a positive step unless
        the range is a single point, and, when relaxation is forbidden, bounds
        inside the class's built-in ones. */
    predicate Valid() {
      && min.Real() <= max.Real()
      && (min.Real() != max.Real() ==> step.Real() > 0.0)
      && (!schema.canRelax ==>
            && schema.min.Some? && schema.max.Some?
            && schema.min.value.Real() <= min.Real()
            && max.Real() <= schema.max.value.Real())
    }
  }

  function AsVal(n: Option<Number>): Val {
    match n
    case Some(x) => Num(x)
    case None => Null
  }

  /** `config.get(key, <class constant>)`. */
  function Resolve(opts: Options, key: string, builtin: Option<Number>): Val {
    if key in opts then opts[key] else AsVal(builtin)
  }

  /** RangeSetting.__init__ with check_config: resolve, then check presence,
      type, ordering, step and relaxation, in that order. */
  function NewRangeSetting(schema: Schema, opts: Options): (r: Result<RangeSetting, Error>)
    ensures r.Ok? ==> r.value.Valid() && r.value.schema == schema
    ensures r.Ok? ==> Num(r.value.min) == Resolve(opts, "min", schema.min)
    ensures r.Ok? ==> Num(r.value.max) == Resolve(opts, "max", schema.max)
    ensures r.Ok? ==> Num(r.value.step) == Resolve(opts, "step", schema.step)
    ensures r.Ok? ==> r.value.default == Resolve(opts, "default", None)
  {
    var minv := Resolve(opts, "min", schema.min);
    var maxv := Resolve(opts, "max", schema.max);
    var stepv := Resolve(opts, "step", schema.step);
    if minv.Null? then Err(NoLowerBound(schema.name))
    else if maxv.Null? then Err(NoUpperBound(schema.name))
    else if stepv.Null? then Err(NoStep(schema.name))
    else if !minv.Num? || !maxv.Num? || !stepv.Num? then Err(InvalidType(schema.name))
    else if minv.n.Real() > maxv.n.Real() then Err(BoundariesCollision(schema.name))
    else if minv.n.Real() != maxv.n.Real() && stepv.n.Real() <= 0.0 then Err(InvalidStepValue(schema.name))
    else if !schema.canRelax && schema.min.None? then Err(SchemaDefinition(schema.name))
    else if !schema.canRelax && minv.n.Real() < schema.min.value.Real() then Err(NoLowerBoundRelaxationAllowed(schema.name))
    else if !schema.canRelax && schema.max.None? then Err(SchemaDefinition(schema.name))
    else if !schema.canRelax && maxv.n.Real() > schema.max.value.Real() then Err(NoUpperBoundRelaxationAllowed(schema.name))
    else Ok(RangeSetting(schema, minv.n, maxv.n, stepv.n, Resolve(opts, "default", None)))
  }

  /** Construction succeeds exactly when min, max and step resolve to numbers
      that form a valid setting. */
  lemma NewRangeSettingSucceedsIff(schema: Schema, opts: Options)
    ensures NewRangeSetting(schema, opts).Ok? <==>
              && NumericBounds(schema, opts)
              && RangeSetting(schema, ResolvedMin(schema, opts).n, ResolvedMax(schema, opts).n,
                              ResolvedStep(schema, opts).n, Null).Valid()
  {
  }

  function ResolvedMin(schema: Schema, opts: Options): Val {
    Resolve(opts, "min", schema.min)
  }

  function ResolvedMax(schema: Schema, opts: Options): Val {
    Resolve(opts, "max", schema.max)
  }

  function ResolvedStep(schema: Schema, opts: Options): Val {
    Resolve(opts, "step", schema.step)
  }

  /** All three of min, max and step resolve to numbers. */
  predicate NumericBounds(schema: Schema, opts: Options) {
    ResolvedMin(schema, opts).Num? && ResolvedMax(schema, opts).Num? && ResolvedStep(schema, opts).Num?
  }

  /** Each check fires only once every earlier check has passed: a missing
      bound is reported before a type error, a type error before an ordering
      error, and a degenerate range accepts any numeric step. */
  lemma ConstructionCheckOrder(schema: Schema, opts: Options)
    ensures ResolvedMin(schema, opts).Null? ==>
              NewRangeSetting(schema, opts) == Err(NoLowerBound(schema.name))
    ensures !ResolvedMin(schema, opts).Null? && ResolvedMax(schema, opts).Null? ==>
              NewRangeSetting(schema, opts) == Err(NoUpperBound(schema.name))
    ensures !ResolvedMin(schema, opts).Null? && !ResolvedMax(schema, opts).Null? && ResolvedStep(schema, opts).Null? ==>
              NewRangeSetting(schema, opts) == Err(NoStep(schema.name))
    ensures && !ResolvedMin(schema, opts).Null? && !ResolvedMax(schema, opts).Null? && !ResolvedStep(schema, opts).Null?
            && !NumericBounds(schema, opts) ==>
              NewRangeSetting(schema, opts) == Err(InvalidType(schema.name))
    ensures NumericBounds(schema, opts) && ResolvedMin(schema, opts).n.Real() > ResolvedMax(schema, opts).n.Real() ==>
              NewRangeSetting(schema, opts) == Err(BoundariesCollision(schema.name))
    ensures && NumericBounds(schema, opts)
            && ResolvedMin(schema, opts).n.Real() < ResolvedMax(schema, opts).n.Real()
            && ResolvedStep(schema, opts).n.Real() <= 0.0 ==>
              NewRangeSetting(schema, opts) == Err(InvalidStepValue(schema.name))
    ensures NumericBounds(schema, opts) && ResolvedMin(schema, opts).n.Real() == ResolvedMax(schema, opts).n.Real() ==>
              NewRangeSetting(schema, opts) != Err(InvalidStepValue(schema.name))
  {
  }

  /** The relaxation lock: when a class forbids relaxation and the other
      checks pass, a resolved bound outside the class's built-in bounds is
      refused, lower bound first, and anything inside them is accepted. */
  lemma RelaxationLock(schema: Schema, opts: Options)
    requires !schema.canRelax && schema.min.Some? && schema.max.Some?
    requires NumericBounds(schema, opts)
    requires ResolvedMin(schema, opts).n.Real() <= ResolvedMax(schema, opts).n.Real()
    requires ResolvedMin(schema, opts).n.Real() != ResolvedMax(schema, opts).n.Real() ==>
               ResolvedStep(schema, opts).n.Real() > 0.0
    ensures ResolvedMin(schema, opts).n.Real() < schema.min.value.Real() ==>
              NewRangeSetting(schema, opts) == Err(NoLowerBoundRelaxationAllowed(schema.name))
    ensures schema.min.value.Real() <= ResolvedMin(schema, opts).n.Real()
            && ResolvedMax(schema, opts).n.Real() > schema.max.value.Real() ==>
              NewRangeSetting(schema, opts) == Err(NoUpperBoundRelaxationAllowed(schema.name))
    ensures schema.min.value.Real() <= ResolvedMin(schema, opts).n.Real()
            && ResolvedMax(schema, opts).n.Real() <= schema.max.value.Real() ==>
              NewRangeSetting(schema, opts).Ok?
  {
  }

  /** The entry `describe` reports for a setting; `default` is present only
      when one was configured, `value` only once a current value is decoded. */
  datatype Description = Description(
    settingType: string,
    min: Number,
    max: Number,
    step: Number,
    unit: string,
    default: Option<Val>,
    value: Option<Val>)

  /** RangeSetting.describe: the setting's name and its static shape. */
  function Describe(s: RangeSetting): (d: (string, Description))
    ensures d.0 == s.Name() && d.1.settingType == "range" && d.1.unit == s.schema.unit
    ensures d.1.min == s.min && d.1.max == s.max && d.1.step == s.step
    ensures d.1.default.Some? <==> !s.default.Null?
    ensures d.1.default.Some? ==> d.1.default.value == s.default
    ensures d.1.value.None?
  {
    (s.Name(), Description("range", s.min, s.max, s.step, s.schema.unit,
                           if s.default.Null? then None else Some(s.default), None))
  }

  /** Python's `%` on numbers read exactly, `a - b * floor(a / b)`, written
      as the fractional part of the quotient scaled back by `b`. */
  function FloorMod(a: real, b: real): (r: real)
    requires b > 0.0
    ensures 0.0 <= r < b
  {
    var t := a / b;
    var frac := t - t.Floor as real;
    FractionScaled(frac, b);
    frac * b
  }

  lemma FractionScaled(frac: real, b: real)
    requires 0.0 <= frac < 1.0 && b > 0.0
    ensures 0.0 <= frac * b < b
  {
    assert (1.0 - frac) * b > 0.0;
  }

  /** The `k`-th point of the grid that starts at `lo` and moves by `step`. */
  function GridPoint(lo: real, step: real, k: int): real {
    lo + k as real * step
  }

  /** Whether `x` lies on the grid that starts at `lo` and moves by `step`. */
  ghost predicate OnGrid(lo: real, step: real, x: real) {
    exists k: int :: x == GridPoint(lo, step, k)
  }

  /** A zero remainder of `x - lo` by `step` means `x` lies on the grid. */
  lemma FloorModZeroIffOnGrid(lo: real, step: real, x: real)
    requires step > 0.0
    ensures FloorMod(x - lo, step) == 0.0 <==> OnGrid(lo, step, x)
  {
    var t := (x - lo) / step;
    var k := t.Floor;
    QuotientTimesDivisor(x - lo, step);
    if FloorMod(x - lo, step) == 0.0 {
      ZeroProduct(t - k as real, step);
      assert t == k as real;
      assert k as real * step == t * step == x - lo;
      assert x == GridPoint(lo, step, k);
    }
    if OnGrid(lo, step, x) {
      var j :| x == GridPoint(lo, step, j);
      assert x - lo == j as real * step;
      MultipleOverDivisor(j, step);
      assert t == j as real;
    }
  }

  lemma QuotientTimesDivisor(a: real, b: real)
    requires b > 0.0
    ensures (a / b) * b == a
  {
  }

  lemma MultipleOverDivisor(k: int, b: real)
    requires b > 0.0
    ensures (k as real * b) / b == k as real
  {
  }

  lemma ZeroProduct(f: real, b: real)
    requires b > 0.0 && f * b == 0.0
    ensures f == 0.0
  {
  }

  /** RangeSetting.validate_value: returns the value unchanged, or the first
      error among absence, wrong type, lower bound, upper bound and step. */
  function ValidateValue(s: RangeSetting, v: Val): (r: Result<Number, Error>)
    ensures r.Ok? ==> v == Num(r.value)
    ensures r.Ok? ==> s.min.Real() <= r.value.Real() <= s.max.Real()
    ensures v.Null? ==> r == Err(NoValueToEncode(s.Name()))
    ensures v.Str? ==> r == Err(InvalidType(s.Name()))
    ensures v.Num? && v.n.Real() < s.min.Real() ==> r == Err(LowerBoundViolation(s.Name()))
    ensures v.Num? && s.min.Real() <= v.n.Real() && v.n.Real() > s.max.Real() ==>
              r == Err(UpperBoundViolation(s.Name()))
    ensures && v.Num? && s.min.Real() <= v.n.Real() <= s.max.Real()
            && !(s.min.Real() < s.max.Real() && s.step.Real() > 0.0) ==>
              r == Ok(v.n)
  {
    match v
    case Null => Err(NoValueToEncode(s.Name()))
    case Str(_) => Err(InvalidType(s.Name()))
    case Num(n) =>
      if n.Real() < s.min.Real() then Err(LowerBoundViolation(s.Name()))
      else if n.Real() > s.max.Real() then Err(UpperBoundViolation(s.Name()))
      else if s.min.Real() < s.max.Real() && s.step.Real() > 0.0
              && FloorMod(n.Real() - s.min.Real(), s.step.Real()) != 0.0 then
        Err(ValueStepRemainder(s.Name()))
      else Ok(n)
  }

  /** The values a valid setting admits: inside the bounds and, unless the
      range is a single point, a whole number of steps above min. */
  ghost predicate Admits(s: RangeSetting, x: real) {
    && s.min.Real() <= x <= s.max.Real()
    && (s.min.Real() < s.max.Real() ==> OnGrid(s.min.Real(), s.step.Real(), x))
  }

  /** On a valid setting, validation accepts exactly the admitted numbers. */
  lemma ValidateValueAdmits(s: RangeSetting, v: Val)
    requires s.Valid()
    ensures ValidateValue(s, v).Ok? <==> v.Num? && Admits(s, v.n.Real())
  {
    if v.Num? && s.min.Real() < s.max.Real() {
      FloorModZeroIffOnGrid(s.min.Real(), s.step.Real(), v.n.Real());
    }
  }

  /** The step test, last of the checks: a number within the bounds of a
      range wider than one point is accepted exactly when it lies on the step
      grid, and refused with a step error otherwise. */
  lemma StepOutcome(s: RangeSetting, n: Number)
    requires s.min.Real() <= n.Real() <= s.max.Real()
    requires s.min.Real() < s.max.Real() && s.step.Real() > 0.0
    ensures OnGrid(s.min.Real(), s.step.Real(), n.Real()) ==> ValidateValue(s, Num(n)) == Ok(n)
    ensures !OnGrid(s.min.Real(), s.step.Real(), n.Real()) ==>
              ValidateValue(s, Num(n)) == Err(ValueStepRemainder(s.Name()))
  {
    FloorModZeroIffOnGrid(s.min.Real(), s.step.Real(), n.Real());
  }

  /** Values one step outside the bounds are refused with a bound violation;
      min itself is always accepted. */
  lemma BoundEnforcement(s: RangeSetting)
    requires s.Valid() && s.step.Real() > 0.0
    ensures ValidateValue(s, Num(Float(s.min.Real() - s.step.Real()))) == Err(LowerBoundViolation(s.Name()))
    ensures ValidateValue(s, Num(Float(s.max.Real() + s.step.Real()))) == Err(UpperBoundViolation(s.Name()))
    ensures ValidateValue(s, Num(s.min)) == Ok(s.min)
  {
    assert FloorMod(0.0, s.step.Real()) == 0.0 by {
      assert (0.0 / s.step.Real()).Floor == 0;
    }
  }
}

=== FILE: scenarios.dfy ===
// One lemma per concrete configuration and value.
module Scenarios {
  import opened Wrappers
  import opened Numbers
  import opened Errors
  import opened Ranges
  import opened JavaOptions
  import opened JavaArgs

  /** `{'min': 1, 'max': 6, 'step': <step>}`. */
  function Bounds(step: Number): Options {
    map["min" := Num(Int(1)), "max" := Num(Int(6)), "step" := Num(step)]
  }

  /** The heap setting those options build. */
  function HeapSetting(step: Number): JavaOptionSetting {
    JavaOptionSetting(MaxHeapSize, RangeSetting(MaxHeapSize.Builtin(), Int(1), Int(6), step, Null))
  }

  lemma HeapSettingBuilds(step: Number)
    requires step.Real() > 0.0
    ensures NewJavaOptionSetting(MaxHeapSize, Bounds(step)) == Ok(HeapSetting(step))
  {
    var opts := Bounds(step);
    assert Resolve(opts, "min", Some(Float(0.5))) == Num(Int(1));
    assert Resolve(opts, "max", None) == Num(Int(6));
    assert Resolve(opts, "step", Some(Float(0.125))) == Num(step);
    assert Resolve(opts, "default", None) == Null;
  }

  /** `str(n)` for a few whole numbers of megabytes. */
  lemma MegabyteDigits()
    ensures Text.NatToDigits(1664) == "1664"
  {
    assert Text.NatToDigits(1) == "1";
    assert Text.NatToDigits(16) == "16";
    assert Text.NatToDigits(166) == "166";
  }

  /** A heap of 1.625 GiB in eighth-gigabyte steps is written as 1664
      megabytes; 1.7 GiB is off the grid. */
  lemma HeapValueConversion()
    ensures NewJavaOptionSetting(MaxHeapSize, Bounds(Float(0.125))).Ok?
    ensures var o := NewJavaOptionSetting(MaxHeapSize, Bounds(Float(0.125))).value;
            && EncodeOption(o, Num(Float(1.625))) == Ok(["-XX:MaxHeapSize=1664m"])
            && EncodeOption(o, Num(Float(1.7))) == Err(ValueStepRemainder("MaxHeapSize"))
  {
    HeapSettingBuilds(Float(0.125));
    var o := HeapSetting(Float(0.125));
    assert FloorMod(1.625 - 1.0, 0.125) == 0.0 by {
      assert ((1.625 - 1.0) / 0.125).Floor == 5;
    }
    assert FloorMod(1.7 - 1.0, 0.125) != 0.0 by {
      assert ((1.7 - 1.0) / 0.125).Floor == 5;
    }
    assert ValidateValue(o.range, Num(Float(1.625))) == Ok(Float(1.625));
    assert ValidateValue(o.range, Num(Float(1.7))) == Err(ValueStepRemainder("MaxHeapSize"));
    assert Transcoders.GbToMb(Float(1.625)) == "1664m" by {
      assert Text.RoundHalfEven(1.625 * 1024.0) == 1664 by {
        assert (1.625 * 1024.0).Floor == 1664;
      }
      MegabyteDigits();
    }
    assert Token(o, Float(1.625)) == "-XX:MaxHeapSize=1664m";
    assert EncodeOption(o, Num(Float(1.625))) == Ok([Token(o, Float(1.625))]);
  }

  /** GCTimeRatio may not be relaxed below 9, but may be narrowed; a narrowed
      range whose width is no multiple of its step refuses its own max. */
  lemma GcRatioRelaxation()
    ensures NewJavaOptionSetting(GCTimeRatio, map["min" := Num(Int(1))])
              == Err(NoLowerBoundRelaxationAllowed("GCTimeRatio"))
    ensures NewJavaOptionSetting(GCTimeRatio, map["max" := Num(Int(100))])
              == Err(NoUpperBoundRelaxationAllowed("GCTimeRatio"))
    ensures var narrowed := map["min" := Num(Int(10)), "max" := Num(Int(90)), "step" := Num(Int(9))];
            && NewJavaOptionSetting(GCTimeRatio, narrowed).Ok?
            && EncodeOption(NewJavaOptionSetting(GCTimeRatio, narrowed).value, Num(Int(90)))
               == Err(ValueStepRemainder("GCTimeRatio"))
  {
    assert FloorMod(80.0, 9.0) != 0.0 by {
      assert (80.0 / 9.0).Floor == 8;
    }
  }

  /** GCTimeRatio with its built-in range and a configured default of 15. */
  function GcSetting(): JavaOptionSetting {
    JavaOptionSetting(GCTimeRatio, RangeSetting(GCTimeRatio.Builtin(), Int(9), Int(99), Int(1), Num(Int(15))))
  }

  lemma GcSettingBuilds()
    ensures NewJavaOptionSetting(GCTimeRatio, map["default" := Num(Int(15))]) == Ok(GcSetting())
  {
    var opts := map["default" := Num(Int(15))];
    assert Resolve(opts, "min", Some(Int(9))) == Num(Int(9));
    assert Resolve(opts, "max", Some(Int(99))) == Num(Int(99));
    assert Resolve(opts, "step", Some(Int(1))) == Num(Int(1));
    assert Resolve(opts, "default", None) == Num(Int(15));
  }

  /** GCTimeRatio with a default of 15 accepts the float 15.0 and writes
      `-XX:GCTimeRatio=15.0`, which it then cannot read back. */
  lemma GcFloatWrittenButUnreadable()
    ensures NewJavaOptionSetting(GCTimeRatio, map["default" := Num(Int(15))]).Ok?
    ensures var o := NewJavaOptionSetting(GCTimeRatio, map["default" := Num(Int(15))]).value;
            && EncodeOption(o, Num(Float(15.0))) == Ok(["-XX:GCTimeRatio=15.0"])
            && DecodeOption(o, ["-XX:GCTimeRatio=15.0"]) == Err(InvalidValue("GCTimeRatio", "-XX:GCTimeRatio=15.0"))
  {
    GcSettingBuilds();
    GcFloatAccepted();
    GcFloatToken();
    GcRatioFloatUnreadable(GcSetting(), 15.0);
  }

  lemma GcFloatAccepted()
    ensures ValidateValue(GcSetting().range, Num(Float(15.0))) == Ok(Float(15.0))
  {
    assert ((15.0 - 9.0) / 1.0).Floor == 6;
  }

  lemma GcFloatToken()
    ensures Token(GcSetting(), Float(15.0)) == "-XX:GCTimeRatio=15.0"
  {
    assert Text.NatToDigits(1) == "1";
    assert Text.NatToDigits(15) == "15";
    assert Text.FractionDigits(0.0, 17) == "";
  }

  /** A configured default stands in for a missing argument. */
  lemma DefaultWhenAbsent()
    ensures DecodeOption(GcSetting(), ["java", "-jar"]) == Ok(Num(Int(15)))
  {
    NoMatches(["java", "-jar"], GcSetting().Prefix());
  }

  /** Two arguments for one setting are refused. */
  lemma TwoArgumentsRefused()
    ensures DecodeOption(GcSetting(), ["-XX:GCTimeRatio=50", "-XX:GCTimeRatio=60"])
            == Err(MultipleSettings("GCTimeRatio"))
  {
    var ts := ["-XX:GCTimeRatio=50", "-XX:GCTimeRatio=60"];
    assert GcSetting().Prefix() <= ts[0] && GcSetting().Prefix() <= ts[1];
    assert ts[0] in Matches(ts, GcSetting().Prefix()) && ts[1] in Matches(ts, GcSetting().Prefix());
  }
}

=== FILE: text.dfy ===
/** Python's integer text conversions as the transcoders use them: `str(int)`,
    `int(str)`, `round`, `str.lower`, `str.split('=', 1)` and the text of a float. */
module Text {
  import opened Wrappers

  predicate IsDigit(c: char) {
    '0' <= c <= '9'
  }

  predicate AllDigits(s: string) {
    forall i :: 0 <= i < |s| ==> IsDigit(s[i])
  }

  function DigitChar(d: int): (c: char)
    requires 0 <= d < 10
    ensures IsDigit(c)
  {
    ('0' as int + d) as char
  }

  function DigitValue(c: char): (d: nat)
    requires IsDigit(c)
    ensures d < 10
  {
    c as int - '0' as int
  }

  /** The decimal digits of `n`, most significant first, without leading zeros. */
  function NatToDigits(n: nat): (s: string)
    ensures |s| > 0 && AllDigits(s)
    ensures s[0] == '0' ==> n == 0 && s == "0"
    decreases n
  {
    if n < 10 then [DigitChar(n)] else NatToDigits(n / 10) + [DigitChar(n % 10)]
  }

  /** The number a string of decimal digits denotes (leading zeros allowed). */
  function DigitsValue(s: string): nat
    requires AllDigits(s)
    decreases |s|
  {
    if |s| == 0 then 0 else DigitsValue(s[..|s| - 1]) * 10 + DigitValue(s[|s| - 1])
  }

  lemma {:induction false} DigitsValueOfNatToDigits(n: nat)
    ensures DigitsValue(NatToDigits(n)) == n
    decreases n
  {
    if n >= 10 {
      DigitsValueOfNatToDigits(n / 10);
      var s := NatToDigits(n / 10) + [DigitChar(n % 10)];
      assert s[..|s| - 1] == NatToDigits(n / 10);
    }
  }

  /** Digits as `str` writes them: no leading zero except in `0` itself. */
  predicate CanonicalDigits(d: string) {
    |d| > 0 && AllDigits(d) && (d[0] == '0' ==> d == "0")
  }

  /** Integer text as `str` writes it: canonical digits, no `+`, and a `-`
      only before a non-zero magnitude. */
  predicate Canonical(s: string) {
    || CanonicalDigits(s)
    || (|s| > 1 && s[0] == '-' && CanonicalDigits(s[1..]) && s[1..] != "0")
  }

  /** `str(i)` for a Python `int`. */
  function IntToDecimal(i: int): (s: string)
    ensures Canonical(s)
  {
    if i < 0 then
      var d := NatToDigits(-i);
      assert ("-" + d)[1..] == d;
      "-" + d
    else NatToDigits(i)
  }

  /** Digits without a leading zero denote at least 1. */
  lemma {:induction false} LeadingDigitPositive(s: string)
    requires |s| > 0 && AllDigits(s) && s[0] != '0'
    ensures DigitsValue(s) >= 1
    decreases |s|
  {
    if |s| > 1 {
      var init := s[..|s| - 1];
      assert init[0] == s[0];
      LeadingDigitPositive(init);
    }
  }

  /** Canonical digits are exactly the digits of the number they denote. */
  lemma {:induction false} DigitsOfCanonical(d: string)
    requires CanonicalDigits(d)
    ensures d == NatToDigits(DigitsValue(d))
    decreases |d|
  {
    var init := d[..|d| - 1];
    var c := d[|d| - 1];
    if |d| == 1 {
      assert init == "";
      assert DigitChar(DigitValue(c)) == c;
    } else {
      assert CanonicalDigits(init) by {
        assert init[0] == d[0];
      }
      DigitsOfCanonical(init);
      LeadingDigitPositive(init);
      var v := DigitsValue(d);
      assert v / 10 == DigitsValue(init) && v % 10 == DigitValue(c);
      assert DigitChar(DigitValue(c)) == c;
      assert d == init + [c];
    }
  }

  /** `int(s)` restricted to an optional sign followed by ASCII digits;
      `None` stands for the `ValueError` Python raises otherwise. */
  function ParseInt(s: string): (r: Option<int>)
    ensures r.Some? ==> |s| > 0
    ensures r.Some? ==> forall k :: 0 < k < |s| ==> IsDigit(s[k])
    ensures r.Some? && !IsDigit(s[0]) ==> |s| > 1 && (s[0] == '-' || s[0] == '+')
  {
    if |s| > 0 && (s[0] == '-' || s[0] == '+') then
      var body := s[1..];
      if |body| > 0 && AllDigits(body) then
        var magnitude: int := DigitsValue(body);
        Some(if s[0] == '-' then -magnitude else magnitude)
      else None
    else if |s| > 0 && AllDigits(s) then Some(DigitsValue(s))
    else None
  }

  /** `k` zero digits. */
  function Zeros(k: nat): (s: string)
    ensures |s| == k && AllDigits(s)
  {
    seq(k, _ => '0')
  }

  lemma {:induction false} DigitsValueOfZeros(k: nat)
    ensures DigitsValue(Zeros(k)) == 0
  {
    if k > 0 {
      assert Zeros(k)[..k - 1] == Zeros(k - 1);
      DigitsValueOfZeros(k - 1);
    }
  }

  /** Leading zeros do not change the number a digit string denotes. */
  lemma {:induction false} DigitsValueLeadingZeros(k: nat, s: string)
    requires AllDigits(s)
    ensures AllDigits(Zeros(k) + s) && DigitsValue(Zeros(k) + s) == DigitsValue(s)
    decreases |s|
  {
    var t := Zeros(k) + s;
    assert AllDigits(t) by {
      forall i | 0 <= i < |t| ensures IsDigit(t[i]) {
        if i >= k {
          assert t[i] == s[i - k];
        }
      }
    }
    if |s| == 0 {
      assert t == Zeros(k);
      DigitsValueOfZeros(k);
    } else {
      assert t[..|t| - 1] == Zeros(k) + s[..|s| - 1];
      DigitsValueLeadingZeros(k, s[..|s| - 1]);
    }
  }

  /** `int()` of unsigned digits. */
  lemma ParseIntDigits(body: string)
    requires |body| > 0 && AllDigits(body)
    ensures ParseInt(body) == Some(DigitsValue(body))
  {
    assert IsDigit(body[0]);
  }

  /** `int()` of a sign followed by digits. */
  lemma ParseIntSigned(sign: char, body: string)
    requires (sign == '+' || sign == '-') && |body| > 0 && AllDigits(body)
    ensures ParseInt([sign] + body) == Some(if sign == '-' then -(DigitsValue(body) as int) else DigitsValue(body))
  {
    assert ([sign] + body)[1..] == body;
  }

  /** The text of a float is never an integer: its point is not a digit. */
  lemma FloatTextNotInteger(x: real)
    ensures ParseInt(FloatText(x)).None?
  {
    var s := FloatText(x);
    var k :| 0 < k < |s| && s[k] == '.';
    assert !IsDigit(s[k]);
  }

  /** `int(str(i)) == i`. */
  lemma ParseIntOfDecimal(i: int)
    ensures ParseInt(IntToDecimal(i)) == Some(i)
  {
    if i < 0 {
      var s := "-" + NatToDigits(-i);
      assert s[1..] == NatToDigits(-i);
      DigitsValueOfNatToDigits(-i);
    } else {
      DigitsValueOfNatToDigits(i);
    }
  }

  /** Canonical text is `str` of the integer it reads as: with `int(s) == i`,
      `Canonical(s)` determines `s` as `str(i)`. */
  lemma CanonicalIsDecimal(s: string)
    requires Canonical(s)
    ensures ParseInt(s).Some? && s == IntToDecimal(ParseInt(s).value)
  {
    if CanonicalDigits(s) {
      ParseIntDigits(s);
      DigitsOfCanonical(s);
    } else {
      var body := s[1..];
      DigitsOfCanonical(body);
      LeadingDigitPositive(body);
      assert s == ['-'] + body;
      ParseIntSigned('-', body);
    }
  }

  /** Python's `round` on an exact real: the nearest integer, ties to even. */
  function RoundHalfEven(x: real): (n: int)
    ensures x - 0.5 <= n as real <= x + 0.5
    ensures (n as real - x == 0.5 || x - n as real == 0.5) ==> n % 2 == 0
  {
    var f := x.Floor;
    var d := x - f as real;
    if d < 0.5 then f
    else if d > 0.5 then f + 1
    else if f % 2 == 0 then f
    else f + 1
  }

  /** Rounding leaves an integral value unchanged. */
  lemma RoundIntegral(x: real)
    requires x.Floor as real == x
    ensures RoundHalfEven(x) == x.Floor
  {
  }

  function LowerChar(c: char): char {
    if 'A' <= c <= 'Z' then (c as int + 32) as char else c
  }

  /** `str.lower()` on ASCII letters. */
  function Lower(s: string): string {
    seq(|s|, i requires 0 <= i < |s| => LowerChar(s[i]))
  }

  /** A string without upper-case ASCII letters is its own lower case. */
  lemma LowerOfLower(s: string)
    requires forall i :: 0 <= i < |s| ==> !('A' <= s[i] <= 'Z')
    ensures Lower(s) == s
  {
  }

  /** The position of the first `c` in `s`, if any. */
  function IndexOf(s: string, c: char): (r: Option<nat>)
    ensures r.Some? ==> r.value < |s| && s[r.value] == c
    ensures r.Some? ==> forall k :: 0 <= k < r.value ==> s[k] != c
    ensures r.None? ==> forall k :: 0 <= k < |s| ==> s[k] != c
  {
    if |s| == 0 then None
    else if s[0] == c then Some(0)
    else match IndexOf(s[1..], c)
      case None => None
      case Some(k) => Some(k + 1)
  }

  /** The part of `s` after its first `'='`, as `s.split('=', 1)[1]`;
      `None` stands for the `IndexError` raised when there is no `'='`. */
  function AfterFirstEquals(s: string): (r: Option<string>)
    ensures r.None? <==> '=' !in s
    ensures r.Some? ==> exists k :: && 0 <= k < |s| && s[k] == '='
                                    && (forall j :: 0 <= j < k ==> s[j] != '=')
                                    && r.value == s[k + 1..]
  {
    match IndexOf(s, '=')
    case None => None
    case Some(k) => Some(s[k + 1..])
  }

  /** Up to `n` decimal digits of a fraction `0 <= f < 1`, truncated, stopping
      early once the remaining fraction is zero. */
  function FractionDigits(f: real, n: nat): (s: string)
    requires 0.0 <= f < 1.0
    ensures AllDigits(s) && |s| <= n
    decreases n
  {
    if n == 0 || f == 0.0 then ""
    else
      var d := (f * 10.0).Floor;
      [DigitChar(d)] + FractionDigits(f * 10.0 - d as real, n - 1)
  }

  /** `str(x)` for a Python `float`, written positionally: sign, integer
      digits, a point, and at least one fraction digit (`15.0`, `-2.5`). */
  function FloatText(x: real): (s: string)
    ensures exists k :: 0 < k < |s| && s[k] == '.'
  {
    var a := if x < 0.0 then -x else x;
    var whole: nat := a.Floor;
    var digits := FractionDigits(a - whole as real, 17);
    var head := (if x < 0.0 then "-" else "") + NatToDigits(whole);
    var s := head + "." + (if digits == "" then "0" else digits);
    assert s[|head|] == '.';
    s
  }
}

=== FILE: transcoders.dfy ===
/** The two value transcoders: gigabytes to `"<n>m"` megabytes, and integers
    to decimal text. Each `encode` is total; each `decode` may fail. */
module Transcoders {
  import opened Wrappers
  import opened Numbers
  import opened Text

  /** What a transcoder's `decode` can raise: `ValueError` is caught and
      reported by the caller, `IndexError` is not. */
  datatype DecodeError = ValueError | IndexError

  /** Whether a number of gigabytes is a whole number of megabytes. */
  predicate WholeMegabytes(n: Number) {
    (n.Real() * 1024.0).Floor as real == n.Real() * 1024.0
  }

  /** IntGbToStrPrefixMbEncoder.encode: gigabytes times 1024, rounded, with an `m` suffix. */
  function GbToMb(n: Number): (s: string)
    ensures |s| >= 2 && s[|s| - 1] == 'm'
  {
    var digits := IntToDecimal(RoundHalfEven(n.Real() * 1024.0));
    assert (digits + "m")[..|digits|] == digits;
    digits + "m"
  }

  /** The text before the `m` is `str` of the rounded count of megabytes:
      canonical integer text that reads back as that count. */
  lemma MegabytesText(n: Number)
    ensures var s := GbToMb(n);
            && Canonical(s[..|s| - 1])
            && ParseInt(s[..|s| - 1]) == Some(RoundHalfEven(n.Real() * 1024.0))
  {
    var mb := RoundHalfEven(n.Real() * 1024.0);
    ParseIntOfDecimal(mb);
    var s := GbToMb(n);
    assert s[..|s| - 1] == IntToDecimal(mb);
  }

  /** IntGbToStrPrefixMbEncoder.decode: the lower-cased text must end in `m`;
      the rest is an integer count of megabytes, divided by 1024. */
  function MbToGb(data: string): (r: Result<Number, DecodeError>)
    ensures r == Err(IndexError) <==> |data| == 0
    ensures r.Ok? <==> |data| > 0 && data[|data| - 1] in "mM" && ParseInt(Lower(data)[..|data| - 1]).Some?
    ensures r.Ok? ==> r.value.Float? && r.value.Real() * 1024.0 == ParseInt(Lower(data)[..|data| - 1]).value as real
  {
    if |data| == 0 then Err(IndexError)
    else
      var val := Lower(data);
      if val[|val| - 1] != 'm' then Err(ValueError)
      else match ParseInt(val[..|val| - 1])
        case None => Err(ValueError)
        case Some(mb) =>
          var gb := mb as real / 1024.0;
          assert gb * 1024.0 == mb as real;
          Ok(Float(gb))
  }

  /** What `decode` gives back is always a whole number of megabytes. */
  lemma DecodedWholeMegabytes(data: string)
    requires MbToGb(data).Ok?
    ensures WholeMegabytes(MbToGb(data).value)
  {
    var mb := ParseInt(Lower(data)[..|data| - 1]).value;
    assert MbToGb(data).value.Real() * 1024.0 == mb as real;
  }

  /** The unit letter may be upper case: `<i>M` reads as `i` megabytes. */
  lemma UpperCaseUnit(i: int)
    ensures MbToGb(IntToDecimal(i) + "M") == Ok(Float(i as real / 1024.0))
  {
    var s := IntToDecimal(i);
    var t := s + "M";
    DecimalHasNoCapitals(i);
    assert Lower(t) == s + "m" by {
      forall k | 0 <= k < |t| ensures Lower(t)[k] == (s + "m")[k] {
        if k < |s| {
          assert t[k] == s[k];
        }
      }
    }
    assert Lower(t)[..|t| - 1] == s;
    ParseIntOfDecimal(i);
  }

  /** StrToIntEncoder.encode: `str(value)`; an int's text reads back as that
      int, a float's text (`15.0`) is no integer at all. */
  function IntToStr(n: Number): (s: string)
    ensures n.Int? ==> Canonical(s) && ParseInt(s) == Some(n.i)
    ensures n.Float? ==> ParseInt(s).None?
  {
    match n
    case Int(i) =>
      ParseIntOfDecimal(i);
      IntToDecimal(i)
    case Float(f) =>
      FloatTextNotInteger(f);
      FloatText(f)
  }

  /** StrToIntEncoder.decode: `int(data)`. */
  function StrToInt(data: string): (r: Result<Number, DecodeError>)
    ensures r != Err(IndexError)
    ensures r.Ok? <==> ParseInt(data).Some?
    ensures r.Ok? ==> r.value.Int? && Some(r.value.i) == ParseInt(data)
    ensures |data| == 0 ==> r == Err(ValueError)
  {
    match ParseInt(data)
    case None => Err(ValueError)
    case Some(i) => Ok(Int(i))
  }

  /** `int()` also reads text `str()` never writes: a `+` sign and leading
      zeros (`int('+007') == 7`, `int('-015') == -15`). */
  lemma StrToIntSignAndZeros(k: nat, n: nat)
    ensures StrToInt(Zeros(k) + NatToDigits(n)) == Ok(Int(n))
    ensures StrToInt("+" + Zeros(k) + NatToDigits(n)) == Ok(Int(n))
    ensures StrToInt("-" + Zeros(k) + NatToDigits(n)) == Ok(Int(-(n as int)))
  {
    var digits := NatToDigits(n);
    var body := Zeros(k) + digits;
    DigitsValueLeadingZeros(k, digits);
    DigitsValueOfNatToDigits(n);
    assert DigitsValue(body) == n;
    ParseIntDigits(body);
    assert "+" + Zeros(k) + digits == ['+'] + body;
    assert "-" + Zeros(k) + digits == ['-'] + body;
    ParseIntSigned('+', body);
    ParseIntSigned('-', body);
  }

  /** The decimal text of an int has no upper-case letter. */
  lemma DecimalHasNoCapitals(i: int)
    ensures forall k :: 0 <= k < |IntToDecimal(i)| ==> !('A' <= IntToDecimal(i)[k] <= 'Z')
  {
    var s := IntToDecimal(i);
    forall k | 0 <= k < |s| ensures !('A' <= s[k] <= 'Z') {
      if i < 0 {
        assert s[k] == ("-" + NatToDigits(-i))[k];
      } else {
        assert s[k] == NatToDigits(i)[k];
      }
    }
  }

  /** The text `GbToMb` writes has no upper-case letter, so lower-casing it changes nothing. */
  lemma LowerOfMegabytes(n: Number)
    ensures Lower(GbToMb(n)) == GbToMb(n)
  {
    var mb := RoundHalfEven(n.Real() * 1024.0);
    var s := IntToDecimal(mb) + "m";
    DecimalHasNoCapitals(mb);
    assert forall k :: 0 <= k < |s| ==> !('A' <= s[k] <= 'Z') by {
      forall k | 0 <= k < |s| ensures !('A' <= s[k] <= 'Z') {
        if k < |s| - 1 {
          assert s[k] == IntToDecimal(mb)[k];
        }
      }
    }
    LowerOfLower(s);
  }

  /** Megabyte round trip: a whole number of megabytes comes back exactly. */
  lemma {:induction false} MegabytesRoundTrip(n: Number)
    requires WholeMegabytes(n)
    ensures MbToGb(GbToMb(n)) == Ok(Float(n.Real()))
  {
    var s := GbToMb(n);
    LowerOfMegabytes(n);
    MegabytesText(n);
    var mb := RoundHalfEven(n.Real() * 1024.0);
    RoundIntegral(n.Real() * 1024.0);
    assert mb as real == n.Real() * 1024.0;
    assert mb as real / 1024.0 == n.Real();
  }

  /** For any number of gigabytes, decoding the encoded text succeeds and is
      off by at most half a megabyte. */
  lemma {:induction false} MegabytesApproximate(n: Number)
    ensures MbToGb(GbToMb(n)).Ok?
    ensures var back := MbToGb(GbToMb(n)).value.Real();
            n.Real() - 1.0 / 2048.0 <= back <= n.Real() + 1.0 / 2048.0
  {
    LowerOfMegabytes(n);
    MegabytesText(n);
    var mb := RoundHalfEven(n.Real() * 1024.0);
    assert MbToGb(GbToMb(n)) == Ok(Float(mb as real / 1024.0));
  }

  /** Integer round trip: `int(str(i)) == i`. */
  lemma IntRoundTrip(i: int)
    ensures StrToInt(IntToStr(Int(i))) == Ok(Int(i))
  {
    ParseIntOfDecimal(i);
  }

  /** A float is written with a decimal point, which `int()` rejects: even a
      whole-valued float such as `15.0` does not come back. */
  lemma FloatDoesNotRoundTrip(f: real)
    ensures StrToInt(IntToStr(Float(f))) == Err(ValueError)
  {
  }
}

=== FILE: wrappers.dfy ===
/** Failure-compatible wrappers used throughout the encoder model. */
module Wrappers {

  /** An optional value: `None` is Python's `None` or an absent key. */
  datatype Option<+T> = None | Some(value: T) {

    /** The wrapped value, or `default` when there is none. */
    function GetOr(default: T): T {
      match this
      case Some(v) => v
      case None => default
    }
  }

  /** The outcome of a call that either returns a value or raises an error. */
  datatype Result<+T, +E> = Ok(value: T) | Err(error: E) {

    predicate IsFailure() {
      Err?
    }

    function PropagateFailure<U>(): Result<U, E>
      requires Err?
    {
      Err(error)
    }

    function Extract(): T
      requires Ok?
    {
      value
    }
  }
}
